=== FILE: README.md ===
# First pass of a two-pass assembler, modelled in Dafny

The repository is an assembler for a 16-instruction teaching machine. It
runs in two passes. This project models the part that exists so far: the
first pass in `file.c` and the instruction table in `parser.h`.

The pass reads a source file line by line and trims each line. It recognises
macro definitions (`mcro NAME` … `mcroend`) and collects their bodies. It
records `.extern` and `.entry` names and `NAME:` labels. It classifies the
remaining lines as instructions, `.data`/`.string` directives or macro calls.
It keeps a global error flag and an instruction counter that starts at 100.

Layout:

- `wrappers.dfy`: the `Option` type.
- `instructions.dfy`: the table of `parser.h`, mnemonic to operand count.
- `lexer.dfy`: `trim`, the keyword prefix tests, `is_label` and the name
  scanner that the macro, `.extern` and `.entry` handlers share (an `isalpha`
  first character, an `isalnum` loop capped at index 32, then nothing but
  blanks up to an optional `;` comment). The scanner's loops are methods
  proved against the function `ScanOf`.
- `directives.dfy`: `strstr`, `count_registers`, `parse_and_count_integers`
  (a method proved against `CountNumbers`, which is in turn related to a
  comma tokenisation) and the checks of `handle_data`.
- `macros.dfy`: the macro table, its search by name and `add_line_to_mcro`.
- `firstpass.dfy`: the pass as pure functions on a `State` value. `StepOf`
  is one iteration of `parser`'s loop and `Run` is the whole loop. The file
  also states the invariant every iteration keeps and lemmas about what
  each kind of line does.
- `assembler.dfy`: the pass as file.c runs it. The class `Assembler` holds
  the globals and `parser`'s locals as fields, and its methods update them in
  place. Each method is proved to leave `Snapshot()` equal to the matching
  function of the functional model. `Parse` is proved to compute `Run`, and
  `FirstPassOf` runs it on a whole file and returns the invariant.

The source file is modelled as a sequence of lines plus the index of the
next line to read. `consume_mcro` reads from the same file as `parser`, so
it moves that index forward. Console messages are not modelled; only the
error flag they go with is.

In these places the model follows what the code does, not what its
declarations suggest:

- Names may be 32 characters long, not the 31 that `char label[32]` leaves
  room for: the scanner's loop stops at index 32.
- Text after a macro, `.extern` or `.entry` name skips that line (or the
  macro body) but does not set the error flag.
- A label whose `:` is not right after the name is dropped without an error.
- Macro body lines are stored trimmed, not verbatim.

## Model

| member | source | states |
|---|---|---|
| Instructions.OperandCount | parser.h:12-13 | a word has an operand count exactly when it is a listed mnemonic, and the count is the one listed with it |
| Instructions.TableShape | parser.h:12-13 | the table has sixteen pairwise distinct mnemonics |
| Instructions.OperandCountsBounded | parser.h:12-13 | no instruction takes more than two operands, so no count collides with the 3 and -1 of `count_registers` |
| Instructions.OperandCountAt | parser.h:12-13 | looking up a listed mnemonic gives the count listed with it; no entry shadows another |
| Instructions.OperandCountGroups | parser.h:13 | the two-, one- and zero-operand groups of the machine |
| Lexer.IndexOf | file.c:114 | `strchr`: the first index holding the character, or the length when none does |
| Lexer.Trim | file.c:30-38 | `trim` yields the trimmed text: no leading blank, no trailing blank or newline |
| Lexer.TrimmedIsSlice | file.c:30-38 | `trim` keeps one contiguous slice; everything before it is blanks, everything after it blanks and newlines |
| Lexer.TrimmedIdempotent | file.c:30-38 | trimming twice is trimming once |
| Lexer.TrimmedOfTrimmed | file.c:30-38 | an already trimmed line is left as it is |
| Lexer.IsMcroEnd | file.c:104-106 | defines `mcroend`: the line starts with `mcroend`; stated by `KeywordsExclusive` |
| Lexer.IsMcroDef | file.c:130-132 | defines `is_mcro_def`: the line starts with `mcro `; stated by `KeywordsExclusive` |
| Lexer.IsExtern | file.c:107-109 | defines `is_extern`: the line starts with `.extern`; stated by `KeywordsExclusive` |
| Lexer.IsEntry | file.c:110-112 | defines `is_entry`: the line starts with `.entry`; stated by `KeywordsExclusive` |
| Lexer.IsLabel | file.c:113-118 | defines `is_label` from the first `:` of the line; stated by `IsLabelMeaning` |
| Lexer.KeywordsExclusive | file.c:104-112 | no line is both a `mcroend` and a `mcro ` line, nor both `.extern` and `.entry` |
| Lexer.IsLabelMeaning | file.c:113-118 | `is_label` holds exactly when the first `:` of the line sits at an index from 1 to 31 |
| Lexer.AlnumRun | file.c:157-161 | the `isalnum` loop stops at index 32, at the end of the text or at the first non-alphanumeric character |
| Lexer.NameLength | file.c:157-161 | the name at the head of the text is the longest prefix that is a name |
| Lexer.ScanOf | file.c:151-181 | the scan fails exactly on a non-letter start; otherwise the name is a prefix of the text, and it is accepted exactly when only blanks precede the first `;` after it |
| Lexer.NameEnd | file.c:157-161 | the loop computes `NameLength` |
| Lexer.CommentOnly | file.c:165-181 | the loop accepts exactly when `OnlyCommentAfter` holds |
| Lexer.ScanName | file.c:151-181 | the scanner as the handlers run it computes `ScanOf` |
| Lexer.AlnumRunEndsAt | file.c:157-161 | the loop ends where a run of letters and digits ends |
| Lexer.NameLengthOfName | file.c:157-164 | a name followed by a non-alphanumeric character is scanned as exactly that name |
| Lexer.ScanOfName | file.c:151-181 | every name alone on its line is accepted as itself |
| Lexer.ScanOfNameWithComment | file.c:165-181 | a name followed by ` ;` is accepted as the name alone |
| Lexer.TrimmedAfterBlank | file.c:30-38 | trimming a blank followed by a trimmed text gives that text |
| Lexer.AcceptedNameIsWholeText | file.c:284-291 | on a trimmed text without a comment the accepted name is the whole text |
| Directives.FindFrom | file.c:438 | `strstr` from an index: the first match at or after it, or none |
| Directives.FindSubOfPrefix | file.c:438 | a text that starts with the pattern finds it at index 0 |
| Directives.MnemonicSearch | file.c:539-545 | the search answers -1 or an operand count of at most 2 |
| Directives.MnemonicSearchMeaning | file.c:539-545 | the search answers -1 exactly when no mnemonic from that entry on occurs anywhere in the line; otherwise it answers the count of the first entry whose mnemonic occurs, every earlier entry being absent |
| Directives.CountRegisters | file.c:534-546 | the result lies between -1 and 3, and is 3 exactly for a line with a `.data` or `.string` directive |
| Directives.CountRegistersMeaning | file.c:534-546 | -1 exactly for a line with no directive and no mnemonic; a result from 0 to 2 is the count of the first table entry found in the line |
| Directives.AbsentFirstChar | file.c:541 | a word whose first character is not in the line is not found |
| Directives.CountRegistersSubstringQuirk | file.c:539-545 | in `prn addr` the mnemonic `add` is found first, so `prn` counts as taking two operands |
| Directives.JoinTokensUnfold | file.c:499-528 | a list is its first token, a comma and the rest |
| Directives.TrailingCommaOfSuffix | file.c:528 | the text after a comma ends with a comma exactly when the whole list does |
| Directives.SplitAtComma | file.c:499-528 | a list splits at its first comma into token and rest |
| Directives.NoCommaBefore | file.c:498 | the text before the first comma holds no comma |
| Directives.TokensNoComma | file.c:497-499 | no token contains a comma |
| Directives.TokensJoin | file.c:495-529 | joining the tokens with commas, plus a final comma when one ends the list, gives back the list |
| Directives.JoinOneToken | file.c:497-499 | a list with no comma, or with one only at its end, is a single token |
| Directives.OneTokenSplit | file.c:497-499 | such a list is its token followed by its trailing comma, if any |
| Directives.JoinFirstToken | file.c:495-529 | a list that goes on after its first comma joins back once its rest does |
| Directives.CountNumbers | file.c:490-532 | the result is -1 or a count |
| Directives.CountNumbersMeaning | file.c:490-532 | the result is the number of tokens when every token is a number, and -1 otherwise |
| Directives.TrailingCommaAccepted | file.c:528 | a comma at the end of the list is accepted and adds no number |
| Directives.IndexOfAppend | file.c:499-500 | the first comma of a concatenation is in the first part when it has one |
| Directives.TokensTrailingComma | file.c:528 | a final comma adds no token |
| Directives.CountNumbersAccepted | file.c:490-532 | `1,-2,3` counts 3 and the empty list counts 0 |
| Directives.CountNumbersRejected | file.c:502-521 | an empty token, a bare sign and a blank after a comma each give -1 |
| Directives.ParseAndCountIntegers | file.c:490-532 | the loop computes `CountNumbers` |
| Directives.CheckNumber | file.c:502-521 | the checks on one token accept it exactly when it is a `ValidNumber`: 1 to 19 characters, an optional sign (one character exactly when the token starts with `+` or `-`, as at file.c:512), then only digits, at least one |
| Directives.DataEffect | file.c:434-489 | a failing directive adds no words, and a `.string` line adds none; its values are stated by `DataLineEffect` and `StringLineEffect` |
| Directives.InstructionEffect | file.c:403-421 | a failing line adds no words; a line without a directive adds none and fails exactly when `count_registers` answers -1 |
| Directives.DataLineEffect | file.c:474-487 | a `.data` line adds one word per token when all tokens are numbers; otherwise it fails and adds none |
| Directives.StringLineEffect | file.c:438-471 | a `.string` line adds no words and fails exactly when its operand lacks the opening or the closing quote |
| Directives.StringEffectAsWritten | file.c:440-449 | defines the `.string` check as written, testing the first character of the line; stated by `StringCheckFinding` |
| Directives.StringCheckFinding | file.c:444 | as written, every `.string "…"` line fails; checking the operand, it passes |
| Macros.Names | file.c:183-190 | the names of the table, one per macro, in order |
| Macros.IndexFrom | file.c:134-139 | the first index from a point on whose name matches, or none |
| Macros.MacroIndex | file.c:133-140 | `is_macro_call`: the first macro with that exact name; none exactly when no macro has it |
| Macros.MacroIndexOfDistinct | file.c:133-140 | with distinct names, each macro is found at its own index |
| Macros.AppendLine | file.c:217-241 | the names are unchanged, and the line is appended to the body of the first macro of that name and of no other |
| Macros.AppendLineToNamed | file.c:217-241 | with distinct names, the named macro gains the line and every other macro is unchanged |
| Macros.AppendLineUnknown | file.c:227 | an unknown name leaves the table unchanged |
| Macros.AppendLineKeepsDistinct | file.c:217-241 | appending a body line keeps names distinct |
| Macros.NamesAppend | file.c:205-213 | registering a macro adds its name at the end |
| Macros.AddKeepsDistinct | file.c:182-213 | registering a name not yet taken keeps names distinct |
| Macros.AddedMacroIndex | file.c:205-213 | a name registered last, and not before, is found at the new last index |
| FirstPass.Start | file.c:41-45 | the counter starts at 100 with empty tables, no error and no macro mode |
| FirstPass.SkipPastMcroEnd | file.c:425-431 | `consume_mcro` stops just past the first `mcroend` line, reading none beyond it, or at the end of the file; it reads at least one line unless the file is at its end |
| FirstPass.AddMcroOf | file.c:143-215 | `add_mcro` only moves the file forward, and not past its end; its rejection branches are stated by `DuplicateMacroRejected` and `BadStartMacro`, its registration by `StepOnFreshDef` and `MacroDefinitionRecorded` |
| FirstPass.DuplicateMacroRejected | file.c:181-202 | a name already taken by a macro or a label sets the error flag, skips the body up to the next `mcroend`, leaves macro mode, and leaves every table and the counter unchanged |
| FirstPass.BadStartMacro | file.c:150-156 | a name that does not start with a letter sets the error flag, adds nothing, leaves the file position and the counter unchanged, and keeps macro mode on with no current macro |
| FirstPass.DispatchOf | file.c:60-82 | the handlers after the macro tests never move the file; the final error branch is stated by `Unclassified`; a blank or comment line and a macro call change nothing, stated by `BlankOrCommentSkipped` and `MacroCallChangesNothing` |
| FirstPass.BlankOrCommentSkipped | file.c:60-62 | a blank line or a comment leaves the state exactly as it was |
| FirstPass.MacroCallChangesNothing | file.c:75-77 | a line that names a macro, and that no earlier branch takes, leaves the state exactly as it was |
| FirstPass.Unclassified | file.c:78-82 | a line that is not blank, a comment, a directive, a label, an instruction or a macro name sets the error flag and leaves the counter, the tables and the file position unchanged |
| FirstPass.StepOf | file.c:47-85 | each iteration reads at least one line and stays inside the file |
| FirstPass.Run | file.c:47-85 | the loop reads the whole file |
| FirstPass.Steps | file.c:47-85 | a bounded number of iterations stays inside the file |
| FirstPass.TrimmedLines | file.c:48 | the trimmed lines of a range of the file, one per line |
| FirstPass.StartInv | file.c:41-45 | the start state satisfies the invariant |
| FirstPass.AppendLineKeepsNames | file.c:217-241 | collecting a body line keeps every macro name a name |
| FirstPass.SameTablesInv | file.c:47-85 | a step that leaves the tables alone keeps the invariant |
| FirstPass.RegisterKeepsInv | file.c:182-213 | registering a fresh name keeps the invariant |
| FirstPass.AddMcroKeepsInv | file.c:143-215 | `add_mcro` keeps the invariant and the state only grows |
| FirstPass.ExternKeepsInv | file.c:244-307 | `handle_extern` keeps the invariant and the state only grows |
| FirstPass.EntryKeepsInv | file.c:308-362 | `handle_entry` keeps the invariant and the state only grows |
| FirstPass.LabelKeepsInv | file.c:363-402 | `handle_label` keeps the invariant and the state only grows |
| FirstPass.InstructionKeepsInv | file.c:403-421 | `handle_instruction` keeps the invariant and the state only grows |
| FirstPass.ErrorKeepsInv | file.c:78-82 | raising the error flag keeps the invariant and the state only grows |
| FirstPass.BodyLineKeepsInv | file.c:217-241 | collecting a body line keeps the invariant and the state only grows |
| FirstPass.DispatchKeepsInv | file.c:62-82 | the line handlers keep the invariant and the state only grows |
| FirstPass.McroModeKeepsInv | file.c:49-55 | leaving macro mode keeps the invariant |
| FirstPass.StepInMcroKeepsInv | file.c:49-55 | an iteration in macro mode keeps the invariant |
| FirstPass.StepOnDefKeepsInv | file.c:56-59 | an iteration on a definition line keeps the invariant |
| FirstPass.StepDispatchKeepsInv | file.c:60-82 | an iteration on any other line keeps the invariant |
| FirstPass.StepKeepsInv | file.c:47-85 | every iteration keeps the invariant; the error flag is never cleared, the counter never falls, and tables only grow at their end |
| FirstPass.RunKeepsInv | file.c:47-85 | the rest of the loop keeps the invariant and only grows the state |
| FirstPass.PassInv | file.c:40-85 | after the whole loop, macro names are distinct names, labels, externs and entries are names, and the counter is at least 100 |
| FirstPass.MacroIndexSameNames | file.c:134-139 | the search depends only on the names |
| FirstPass.StepInMcro | file.c:49-55 | in macro mode, `mcroend` leaves the mode and any other line joins the current body |
| FirstPass.StepOnDef | file.c:56-59 | outside macro mode a definition line goes to `add_mcro` |
| FirstPass.StepOnOther | file.c:60-82 | outside macro mode any other line goes to the line handlers |
| FirstPass.StepsUnfold | file.c:47-85 | n+1 iterations are one iteration followed by n |
| FirstPass.AppendLineAt | file.c:217-241 | the line joins the body at the macro's index |
| FirstPass.StepOnBodyLine | file.c:49-55 | a body line is appended to the current macro and nothing else changes |
| FirstPass.SetBodyKeepsIndex | file.c:217-241 | after its body grows, the current macro is still found at the same index |
| FirstPass.BodyCollected | file.c:49-55 | k body lines and then `mcroend` append exactly those trimmed lines to the current macro and leave macro mode |
| FirstPass.BodyLineThenRest | file.c:49-55 | one body line, then the rest of the body |
| FirstPass.StepOnFreshDef | file.c:205-213 | a definition with a fresh name registers it with an empty body and enters macro mode for it |
| FirstPass.MacroDefinitionRecorded | file.c:47-59 | a fresh `mcro NAME`, k body lines and `mcroend` register NAME with exactly those lines; nothing else changes |
| FirstPass.FreshBodyCollected | file.c:49-55 | from the state a fresh definition leaves, k body lines and `mcroend` fill the new macro's body with exactly those lines |
| FirstPass.DefinitionAsWritten | file.c:56-59 | defines a definition line as `parser` handles it, with macro mode left on after `add_mcro`; stated by `SkippedBodyFinding` |
| FirstPass.SkippedBodyFinding | file.c:56-59 | after a definition with trailing text, the corrected step leaves macro mode; as written the mode stays on past `mcroend`, so the next lines are swallowed |
| FirstPass.StepOnTrailingDef | file.c:165-176 | a definition with trailing text skips its body without setting the error flag |
| FirstPass.BodyLineIgnored | file.c:226-227 | in macro mode with no current macro, a body line only moves the file |
| FirstPass.ExternOf | file.c:244-307 | `handle_extern` changes only the error flag and the externs, never clears the flag, and either leaves the externs alone or appends one name not declared before; stated further by `ExternDeclared`; its bad-start and trailing-text branches by `ExternBadStart` and `ExternTrailing` |
| FirstPass.ExternBadStart | file.c:253-259 | an operand that is empty or does not start with a letter sets the error flag and changes nothing else |
| FirstPass.ExternTrailing | file.c:267-281 | text after the name that is not a comment drops the line: the state is unchanged and no error is set |
| FirstPass.ExternOfAsWritten | file.c:244-307 | defines `handle_extern` as written, comparing the whole trimmed operand with the declared names; stated by `ExternDuplicateFinding` |
| FirstPass.EntryOf | file.c:308-362 | `handle_entry` changes only the error flag and the entries, never clears the flag, and either leaves the entries alone or appends one name; stated further by `EntryRecorded` and `EntryCommentFinding`; its bad-start and trailing-text branches by `EntryBadStart` and `EntryTrailing` |
| FirstPass.EntryBadStart | file.c:318-324 | an operand that is empty or does not start with a letter sets the error flag and changes nothing else |
| FirstPass.EntryTrailing | file.c:331-342 | text after the name that is not a comment drops the line: the state is unchanged and no error is set |
| FirstPass.EntryOfAsWritten | file.c:308-362 | defines `handle_entry` as written, recording the whole trimmed operand; stated by `EntryCommentFinding` |
| FirstPass.LabelOf | file.c:363-402 | `handle_label` changes only the error flag, the counter and the labels, never clears the flag or lowers the counter, and appends at most one label, a name; stated further by `LabelRecorded` and `LabelBlankBeforeColon`; its bad-start branch by `LabelBadStart` |
| FirstPass.LabelBadStart | file.c:372-377 | a line whose trimmed text is empty or does not start with a letter sets the error flag and changes nothing else |
| FirstPass.InstructionOf | file.c:403-421 | `handle_instruction` changes only the error flag and the counter, never clears the flag and never lowers the counter |
| FirstPass.ExternDeclared | file.c:244-307 | `.extern NAME` declares NAME, or sets the error flag when NAME is already declared |
| FirstPass.ExternDuplicateFinding | file.c:284-291 | as written, a repeated `.extern NAME ;` is declared twice; comparing the name catches it |
| FirstPass.EntryCommentFinding | file.c:344 | as written, `.entry NAME ;` records `NAME ;`, which is not a name; cutting the operand to the scanned name records NAME |
| FirstPass.EntryRecorded | file.c:308-362 | `.entry NAME` records NAME |
| FirstPass.LabelRecorded | file.c:363-402 | `NAME: rest` records NAME and handles the trimmed rest as an instruction |
| FirstPass.LabelBlankBeforeColon | file.c:384-387 | a blank before the `:` drops the line and leaves the error flag as it was |
| Assembler.Contains | file.c:192-200 | the `strcmp` loop finds the text exactly when it is in the list |
| Assembler.FindMacro | file.c:133-140 | the loop computes `MacroIndex` |
| Assembler.CountOperands | file.c:534-546 | the loop computes `CountRegisters` |
| Assembler.Assembler.Snapshot | file.c:13-45 | the fields read as a state of the functional model |
| Assembler.Assembler.constructor | file.c:41-45 | the object starts in `Start()` and satisfies the invariant |
| Assembler.Assembler.ConsumeMcro | file.c:425-431 | the file moves to `SkipPastMcroEnd` and nothing else changes |
| Assembler.Assembler.AddMcro | file.c:143-215 | the fields become `AddMcroOf` of the old state |
| Assembler.Assembler.AddLineToMcro | file.c:217-241 | the table becomes `AppendLine` of the old table; nothing else changes |
| Assembler.Assembler.HandleExtern | file.c:244-307 | the fields become `ExternOf` of the old state |
| Assembler.Assembler.HandleEntry | file.c:308-362 | the fields become `EntryOf` of the old state |
| Assembler.Assembler.HandleData | file.c:434-489 | the error flag and the counter change by `DataEffect`; nothing else changes |
| Assembler.Assembler.HandleInstruction | file.c:403-421 | the fields become `InstructionOf` of the old state |
| Assembler.Assembler.HandleLabel | file.c:363-402 | the fields become `LabelOf` of the old state |
| Assembler.Assembler.RecordLabel | file.c:388-401 | the label is appended to the labels, and the fields then become `InstructionOf` the trimmed rest of the line |
| Assembler.Assembler.Dispatch | file.c:62-82 | the fields become `DispatchOf` of the old state |
| Assembler.Assembler.Step | file.c:47-85 | the fields become `StepOf` of the old state, and the invariant is kept |
| Assembler.Assembler.Parse | file.c:40-85 | the fields become `Run` of the old state, the whole file is read, and the invariant holds |
| Assembler.FirstPassOf | file.c:40-85 | the pass over a file ends in `Run(input, Start())`, having read every line, with distinct valid macro names, valid labels, externs and entries, and the counter at least 100 |

## Left out

- Reading lines with `fgets` into an 82-byte buffer is not modelled. A line longer than 80 characters would be split into two; here every element of the input is one whole line.
- The console messages (`printf`, `perror`) are left out, and so is the line number printed with an error.
- Allocation failure and `exit` are left out. The model's tables cannot fail to grow.
- The final cleanup loop that frees the macro bodies is left out.
- file.c:396 tests `extern_list` instead of `label_list` after growing the label table. That would end the program at the first label when no `.extern` came before it. The model treats it as the intended allocation check, so it never ends the run.
- `is_instruction` (file.c:119-129) does not compile. Its branch in `parser` is modelled as `count_registers(line) != -1`, the same test `handle_instruction` applies.
- `handle_mcro` is an empty stub. A macro call is accepted and changes nothing; no expansion is modelled.
- `add_extern_location` and `add_entry_loction` are only declared and are not part of this model.
- The Pass 2 work is not part of this model, and neither is `unknown_list` or file.h.
- HandleData: the `.string` branch checks the quotes of the operand and adds no words. The character count of the string is not modelled.
- Start: the counter is an unbounded natural number; the 32-bit wrap-around of `unsigned int IC` is not modelled.
- Start: only the first call of `parser` in a process is modelled. The tables, their counts and `error` are globals initialised once (file.c:14-26) and never reset, and the cleanup (file.c:92-100) frees `mcro_list` but keeps `mcro_count`. A second call would therefore start from the earlier file's tables and error flag, and would use freed memory.
- `parser` passes `current_mcro` to `add_mcro` and never fills it. The model scans the definition line itself, as the handler's own code expects. The name the handler registers becomes the current macro, and it is empty when the definition was rejected.
- Reads of uninitialised variables are modelled as starting from 0. This covers `n` in `handle_entry` and `i` in `handle_data` and `count_registers`.
- The `strncpy` calls at file.c:250 and 315 take their length from an uninitialised buffer. They are modelled as copying the whole rest of the line.
- file.c:371 sets `copy_line` to NULL, so the read `copy_line[n]` at file.c:384 dereferences a null pointer and would end the run at every label line. The model reads the trimmed label text at that index instead, the evident intent.
- The copy of a name into an unterminated `label` buffer (file.c:164, 266) is modelled as the name itself.
- Several statements do not compile as written. The model follows their evident intent:
  - `handle_instruction` calls the undeclared `count_register` (file.c:406). The model uses `count_registers`.
  - file.c:415 passes `&IC`, an `unsigned int **`, to `handle_data`, and the statement lacks its `;`. As written, the `(*IC) += count` at file.c:486 would not reach `parser`'s counter. `InstructionOf` and `HandleInstruction` advance the counter of the pass.
  - file.c:447 lacks the `;` after `error=1`. The model sets the error flag and returns.
  - file.c:539-541 bounds the loop by `strlen(instruction_list)` and reads the misspelled `instruciton_list`. The model searches the sixteen entries of the table in order.
  - parser.h:12 declares `instructions_list` without a type. The model reads it as a table of mnemonic and operand-count pairs.
- Body lines of a macro in macro mode are compared only with `mcroend`. A nested `mcro` inside a body is stored as a body line, as the code does.

## Findings

| source | as written | input that shows it | evidently intended | confidence | as-written member | corrected member |
|---|---|---|---|---|---|---|
| file.c:444 | the opening-quote test of `.string` reads `line[0]`, which is `.`, instead of the operand `data` | `.string "ab"` sets the error flag | the quotes of the trimmed operand are checked | not executed | Directives.StringEffectAsWritten, Directives.StringCheckFinding | Directives.DataEffect, Directives.StringLineEffect |
| file.c:56-59 | `in_mcro` is set before `add_mcro` and stays set when `add_mcro` has already skipped the body with `consume_mcro` | `mcro m1 x`, then a body, `mcroend`, and a line `stop`: the `stop` line is swallowed as a macro body line | the body is skipped and the pass goes back to normal mode | not executed | FirstPass.DefinitionAsWritten, FirstPass.SkippedBodyFinding | FirstPass.AddMcroOf, FirstPass.StepOnTrailingDef |
| file.c:284-291 | the duplicate `.extern` check compares the whole trimmed operand, comment included, with the stored names | `.extern X` then `.extern X ;` declares X twice without an error | the scanned name is compared | not executed | FirstPass.ExternOfAsWritten, FirstPass.ExternDuplicateFinding | FirstPass.ExternOf, FirstPass.ExternDeclared |
| file.c:344 | `strncpy(label_line,label_line,n)` copies the operand onto itself, which C leaves undefined, and cuts nothing, so the whole trimmed operand is recorded | `.entry X ;` records `X ;`, which can never match a label | the operand is cut to the scanned name | not executed | FirstPass.EntryOfAsWritten, FirstPass.EntryCommentFinding | FirstPass.EntryOf, FirstPass.EntryRecorded |

=== FILE: assembler.dfy ===
/** The first pass as file.c runs it: the file-level globals and the locals
    of `parser` become the fields of one object, each handler a method that
    updates them in place, and each method is proved to do what the matching
    function of `FirstPass` describes. */
module Assembler {
  import opened Wrappers
  import opened Lexer
  import opened Directives
  import opened Macros
  import opened FirstPass

  /** The `strcmp` loops over `extern_list` and `label_list`: whether `x`
      is one of the texts of `list`. */
  method Contains(list: seq<string>, x: string) returns (found: bool)
    ensures found <==> x in list
  {
    var i := 0;
    while i < |list|
      invariant i <= |list|
      invariant x !in list[..i]
    {
      if list[i] == x {
        return true;
      }
      i := i + 1;
    }
    assert list[..i] == list;
    return false;
  }

  /** `is_macro_call` and the search of `add_line_to_mcro`: the first macro
      whose name is exactly `name`. */
  method FindMacro(macros: seq<Macro>, name: string) returns (idx: Option<nat>)
    ensures idx == MacroIndex(macros, name)
  {
    var i := 0;
    while i < |macros|
      invariant i <= |macros|
      invariant IndexFrom(macros, name, i) == MacroIndex(macros, name)
    {
      if macros[i].name == name {
        return Some(i);
      }
      i := i + 1;
    }
    return None;
  }

  /** `count_registers`: 3 for a data directive, otherwise the operand count
      of the first entry of the instruction table found in the line, or -1. */
  method CountOperands(line: string) returns (count: int)
    ensures count == CountRegisters(line)
  {
    if Occurs(line, DataKeyword) || Occurs(line, StringKeyword) {
      return 3;
    }
    Instructions.OperandCountsBounded();
    var i := 0;
    while i < |Instructions.Table|
      invariant i <= |Instructions.Table|
      invariant MnemonicSearch(line, Instructions.Table, i) == CountRegisters(line)
    {
      if Occurs(line, Instructions.Table[i].0) {
        return Instructions.Table[i].1;
      }
      i := i + 1;
    }
    return -1;
  }

  /** The state of one run of `parser` over `input`. */
  class Assembler {
    /** The lines of the source file, read one by one from `pos` on. */
    const input: seq<string>
    var pos: nat
    var macros: seq<Macro>
    var labels: seq<string>
    var externs: seq<string>
    var entries: seq<string>
    var error: bool
    var ic: nat
    var inMcro: bool
    var currentMcro: string

    /** The fields as a value of the functional model. */
    function Snapshot(): (st: State)
      reads this
      ensures st.pos == pos && st.ic == ic && st.error == error && st.inMcro == inMcro
    {
      State(pos, macros, labels, externs, entries, error, ic, inMcro, currentMcro)
    }

    /** The invariant of the pass holds of the fields. */
    ghost predicate Valid()
      reads this
    {
      Inv(input, Snapshot())
    }

    /** The state `parser` starts from: the counter at 100, empty tables. */
    constructor(input: seq<string>)
      ensures this.input == input && Snapshot() == Start() && Valid()
    {
      this.input := input;
      pos := 0;
      macros := [];
      labels := [];
      externs := [];
      entries := [];
      error := false;
      ic := InitialIC;
      inMcro := false;
      currentMcro := "";
      new;
      StartInv(input);
    }

    /** `consume_mcro`: reads lines up to and including the next `mcroend`. */
    method ConsumeMcro()
      requires pos <= |input|
      modifies this
      ensures Snapshot() == old(Snapshot()).(pos := SkipPastMcroEnd(input, old(pos)))
    {
      while pos < |input|
        invariant old(pos) <= pos <= |input|
        invariant SkipPastMcroEnd(input, pos) == SkipPastMcroEnd(input, old(pos))
        invariant Snapshot() == old(Snapshot()).(pos := pos)
        decreases |input| - pos
      {
        var buf := Trim(input[pos]);
        pos := pos + 1;
        if IsMcroEnd(buf) {
          return;
        }
      }
    }

    /** `add_mcro` on the trimmed definition line. */
    method AddMcro(line: string)
      requires IsMcroDef(line) && pos <= |input|
      modifies this
      ensures Snapshot() == AddMcroOf(input, old(Snapshot()), line)
    {
      var s := Trim(line[|McroKeyword|..]);
      var scan := ScanName(s);
      match scan
      case BadStart =>
        error, inMcro, currentMcro := true, true, "";
      case Trailing(_) =>
        ConsumeMcro();
        inMcro, currentMcro := false, "";
      case Accepted(name) =>
        var idx := FindMacro(macros, name);
        var isLabel := Contains(labels, name);
        if idx.Some? || isLabel {
          ConsumeMcro();
          error, inMcro, currentMcro := true, false, "";
        } else {
          macros := macros + [Macro(name, [])];
          inMcro, currentMcro := true, name;
        }
    }

    /** `add_line_to_mcro`: the line joins the body of the macro being
      defined. */
    method AddLineToMcro(line: string)
      modifies this
      ensures Snapshot() == old(Snapshot()).(macros := AppendLine(old(macros), old(currentMcro), line))
    {
      var idx := FindMacro(macros, currentMcro);
      if idx.None? {
        return;
      }
      var k := idx.value;
      macros := macros[k := Macro(currentMcro, macros[k].body + [line])];
    }

    /** `handle_extern`. */
    method HandleExtern(line: string)
      requires IsExtern(line)
      modifies this
      ensures Snapshot() == ExternOf(old(Snapshot()), line)
    {
      var s := Trim(line[|ExternKeyword|..]);
      var scan := ScanName(s);
      match scan
      case BadStart =>
        error := true;
      case Trailing(_) =>
      case Accepted(name) =>
        var twice := Contains(externs, name);
        if twice {
          error := true;
        } else {
          externs := externs + [name];
        }
    }

    /** `handle_entry`. */
    method HandleEntry(line: string)
      requires IsEntry(line)
      modifies this
      ensures Snapshot() == EntryOf(old(Snapshot()), line)
    {
      var s := Trim(line[|EntryKeyword|..]);
      var scan := ScanName(s);
      match scan
      case BadStart =>
        error := true;
      case Trailing(_) =>
      case Accepted(name) =>
        entries := entries + [name];
    }

    /** `handle_data`: the `.string` operand is checked for its quotes; the
      `.data` operand is counted by `parse_and_count_integers`. */
    method HandleData(line: string)
      requires HasDataDirective(line)
      modifies this
      ensures var e := DataEffect(line);
        Snapshot() == old(Snapshot()).(error := old(error) || e.fails, ic := old(ic) + e.words)
    {
      if Occurs(line, StringKeyword) {
        var data := Trim(line[FindSub(line, StringKeyword).value + |StringKeyword|..]);
        if !StringQuotesOk(data) {
          error := true;
        }
      } else {
        var data := Trim(line[FindSub(line, DataKeyword).value + |DataKeyword|..]);
        var count := ParseAndCountIntegers(data);
        if count == -1 {
          error := true;
          return;
        }
        ic := ic + count;
      }
    }

    /** `handle_instruction`. */
    method HandleInstruction(line: string)
      modifies this
      ensures Snapshot() == InstructionOf(old(Snapshot()), line)
    {
      var count := CountOperands(line);
      if count == -1 {
        error := true;
      }
      if count == 3 {
        HandleData(line);
      }
    }

    /** `handle_label`. */
    method HandleLabel(line: string)
      modifies this
      ensures Snapshot() == LabelOf(old(Snapshot()), line)
    {
      var text := Trim(line);
      if text == [] || !IsAlpha(text[0]) {
        error := true;
        return;
      }
      var n := NameEnd(text);
      if n == |text| || text[n] != ':' {
        return;
      }
      RecordLabel(text, n);
    }

    /** The end of `handle_label` once `text[..n]` is known to be a label:
      it is recorded and the rest of the line is handled as an
      instruction. */
    method RecordLabel(text: string, n: nat)
      requires n < |text|
      modifies this
      ensures Snapshot() == InstructionOf(old(Snapshot()).(labels := old(labels) + [text[..n]]), Trimmed(text[n + 1..]))
    {
      labels := labels + [text[..n]];
      var rest := Trim(text[n + 1..]);
      HandleInstruction(rest);
    }

    /** The branches of `parser`'s loop after the macro tests. */
    method Dispatch(line: string)
      modifies this
      ensures Snapshot() == DispatchOf(old(Snapshot()), line)
    {
      if IsBlankOrComment(line) {
      } else if IsExtern(line) {
        HandleExtern(line);
      } else if IsEntry(line) {
        HandleEntry(line);
      } else if IsLabel(line) {
        HandleLabel(line);
      } else {
        var count := CountOperands(line);
        if count != -1 {
          HandleInstruction(line);
        } else {
          var idx := FindMacro(macros, line);
          if idx.None? {
            error := true;
          }
        }
      }
    }

    /** One iteration of `parser`'s loop; it keeps the invariant. */
    method Step()
      requires pos < |input|
      modifies this
      ensures Snapshot() == StepOf(input, old(Snapshot()))
      ensures old(Valid()) ==> Valid()
    {
      ghost var st := Snapshot();
      if Inv(input, st) {
        StepKeepsInv(input, st);
      }
      var line := Trim(input[pos]);
      pos := pos + 1;
      ghost var next := Snapshot();
      assert next == st.(pos := st.pos + 1);
      if inMcro {
        StepInMcro(input, st);
        if IsMcroEnd(line) {
          inMcro := false;
        } else {
          AddLineToMcro(line);
        }
      } else if IsMcroDef(line) {
        StepOnDef(input, st);
        AddMcro(line);
      } else {
        StepOnOther(input, st);
        Dispatch(line);
      }
    }

    /** `parser`: iterations until the input is exhausted. */
    method Parse()
      requires Valid()
      modifies this
      ensures Snapshot() == Run(input, old(Snapshot()))
      ensures pos == |input| && Valid()
    {
      while pos < |input|
        invariant Valid()
        invariant Run(input, Snapshot()) == Run(input, old(Snapshot()))
        decreases |input| - pos
      {
        Step();
      }
    }
  }

  /** The first pass over a whole file: the final state is the run of the
      model from the start, and it satisfies the invariant of the pass. */
  method FirstPassOf(input: seq<string>) returns (st: State)
    ensures st == Run(input, Start())
    ensures st.pos == |input| && st.ic >= InitialIC
    ensures DistinctNames(st.macros) && MacroNamesValid(st.macros)
    ensures AllNames(st.labels) && AllNames(st.externs) && AllNames(st.entries)
  {
    var a := new Assembler(input);
    a.Parse();
    st := a.Snapshot();
  }
}

=== FILE: directives.dfy ===
/** What the first pass reads off an instruction or directive line:
    `count_registers`, `parse_and_count_integers` and the checks of
    `handle_data` (file.c), with the `strstr` search they rely on. */
module Directives {
  import opened Wrappers
  import opened Lexer
  import Instructions

  // ---------------------------------------------------------------------
  // strstr

  /** `p` occurs in `s` at index `i`. */
  predicate MatchAt(s: string, p: string, i: nat)
  {
    i + |p| <= |s| && s[i..i + |p|] == p
  }

  /** First index at or after `i` where `p` occurs in `s`. */
  function FindFrom(s: string, p: string, i: nat): (r: Option<nat>)
    requires i <= |s|
    ensures r.Some? ==> i <= r.value && MatchAt(s, p, r.value)
    ensures r.Some? ==> forall j :: i <= j < r.value ==> !MatchAt(s, p, j)
    ensures r.None? ==> forall j :: i <= j ==> !MatchAt(s, p, j)
    decreases |s| - i
  {
    if i + |p| > |s| then None
    else if MatchAt(s, p, i) then Some(i)
    else if i == |s| then None
    else FindFrom(s, p, i + 1)
  }

  /** `strstr(s, p)`: the index of the first occurrence of `p` in `s`. */
  function FindSub(s: string, p: string): (r: Option<nat>)
  {
    FindFrom(s, p, 0)
  }

  /** `strstr(s, p) != NULL` */
  predicate Occurs(s: string, p: string)
  {
    FindSub(s, p).Some?
  }

  /** A line that begins with `p` finds `p` at index 0. */
  lemma FindSubOfPrefix(s: string, p: string)
    requires p <= s
    ensures FindSub(s, p) == Some(0)
  {
    assert MatchAt(s, p, 0);
  }

  // ---------------------------------------------------------------------
  // count_registers

  const DataKeyword := ".data"
  const StringKeyword := ".string"

  /** The line names a data directive somewhere in it. */
  predicate HasDataDirective(line: string)
  {
    Occurs(line, DataKeyword) || Occurs(line, StringKeyword)
  }

  /** Search of an instruction table from entry `i` on: the operand count
      of the first entry whose mnemonic occurs anywhere in `line`, or -1. */
  function MnemonicSearch(line: string, table: seq<(string, nat)>, i: nat): (r: int)
    requires i <= |table|
    requires forall j :: 0 <= j < |table| ==> table[j].1 <= 2
    ensures -1 <= r <= 2
    decreases |table| - i
  {
    if i == |table| then -1
    else if Occurs(line, table[i].0) then table[i].1
    else MnemonicSearch(line, table, i + 1)
  }

  /** The search answers -1 exactly when no mnemonic from entry `i` on
      occurs in the line, and otherwise the count of the first entry whose
      mnemonic does. */
  lemma {:induction false} MnemonicSearchMeaning(line: string, table: seq<(string, nat)>, i: nat)
    requires i <= |table|
    requires forall j :: 0 <= j < |table| ==> table[j].1 <= 2
    ensures MnemonicSearch(line, table, i) == -1 <==>
      forall j :: i <= j < |table| ==> !Occurs(line, table[j].0)
    ensures MnemonicSearch(line, table, i) != -1 ==>
      exists j :: i <= j < |table| && Occurs(line, table[j].0) &&
        MnemonicSearch(line, table, i) == table[j].1 &&
        forall k :: i <= k < j ==> !Occurs(line, table[k].0)
    decreases |table| - i
  {
    if i == |table| {
    } else if Occurs(line, table[i].0) {
      assert MnemonicSearch(line, table, i) == table[i].1;
    } else {
      MnemonicSearchMeaning(line, table, i + 1);
      var r := MnemonicSearch(line, table, i + 1);
      assert MnemonicSearch(line, table, i) == r;
      if r != -1 {
        var j :| i + 1 <= j < |table| && Occurs(line, table[j].0) && r == table[j].1 &&
          forall k :: i + 1 <= k < j ==> !Occurs(line, table[k].0);
        assert forall k :: i <= k < j ==> !Occurs(line, table[k].0);
      }
    }
  }

  /** `count_registers`: 3 for a data directive, otherwise the operand count
      of the first table mnemonic found anywhere in the line, otherwise -1. */
  function CountRegisters(line: string): (r: int)
    ensures -1 <= r <= 3
    ensures r == 3 <==> HasDataDirective(line)
  {
    if HasDataDirective(line) then 3
    else
      Instructions.OperandCountsBounded();
      MnemonicSearch(line, Instructions.Table, 0)
  }

  /** `count_registers` answers -1 exactly for a line that names neither a
      data directive nor any mnemonic, and a count from 0 to 2 only for the
      first entry of the table whose mnemonic the line contains. */
  lemma CountRegistersMeaning(line: string)
    ensures CountRegisters(line) == -1 <==>
      !HasDataDirective(line) &&
      forall j :: 0 <= j < |Instructions.Table| ==> !Occurs(line, Instructions.Table[j].0)
    ensures 0 <= CountRegisters(line) <= 2 ==>
      exists j :: 0 <= j < |Instructions.Table| && Occurs(line, Instructions.Table[j].0) &&
        CountRegisters(line) == Instructions.Table[j].1 &&
        forall k :: 0 <= k < j ==> !Occurs(line, Instructions.Table[k].0)
  {
    Instructions.OperandCountsBounded();
    MnemonicSearchMeaning(line, Instructions.Table, 0);
  }

  /** A word whose first character is absent from a line does not occur
      in it. */
  lemma AbsentFirstChar(s: string, p: string)
    requires p != [] && p[0] !in s
    ensures !Occurs(s, p)
  {
    forall j | 0 <= j ensures !MatchAt(s, p, j) {
      if j + |p| <= |s| {
        assert s[j..j + |p|][0] == s[j];
      }
    }
  }

  /** Because the table is searched with `strstr`, an operand can decide the
      count: in `prn addr` the mnemonic `add`, listed before `prn`, is found
      first, so the one-operand `prn` is counted as taking two. */
  lemma CountRegistersSubstringQuirk(line: string)
    requires line == "prn addr"
    ensures CountRegisters(line) == 2
  {
    assert Occurs(line, Instructions.Table[2].0) by {
      assert MatchAt(line, Instructions.Table[2].0, 4);
    }
    Instructions.OperandCountsBounded();
    assert MnemonicSearch(line, Instructions.Table, 1) == 2 by {
      AbsentFirstChar(line, Instructions.Table[1].0);
    }
    assert MnemonicSearch(line, Instructions.Table, 0) == 2 by {
      AbsentFirstChar(line, Instructions.Table[0].0);
    }
    AbsentFirstChar(line, DataKeyword);
    AbsentFirstChar(line, StringKeyword);
  }

  // ---------------------------------------------------------------------
  // parse_and_count_integers

  /** A token of a `.data` list as the parser accepts it: shorter than the
      20-byte buffer, an optional sign, then at least one digit and nothing
      but digits. */
  predicate ValidNumber(t: string)
  {
    0 < |t| < 20 && SignLength(t) < |t| &&
    forall i :: SignLength(t) <= i < |t| ==> IsDigit(t[i])
  }

  /** 1 when the token opens with a sign, else 0. */
  function SignLength(t: string): (n: nat)
    ensures n <= 1 && n <= |t|
    ensures n == 1 <==> t != [] && (t[0] == '+' || t[0] == '-')
  {
    if t != [] && (t[0] == '+' || t[0] == '-') then 1 else 0
  }

  /** The text after the first comma of `s` (empty when there is none): where
      the parser's pointer moves once a token is done. */
  function AfterToken(s: string): (rest: string)
    requires s != []
    ensures |rest| < |s|
  {
    var k := IndexOf(s, ',');
    if k < |s| then s[k + 1..] else []
  }

  /** The tokens the parser visits: the comma-separated fields of `s`, where
      a single trailing comma does not start another field. */
  function Tokens(s: string): (ts: seq<string>)
    decreases |s|
  {
    if s == [] then [] else [s[..IndexOf(s, ',')]] + Tokens(AfterToken(s))
  }

  /** The tokens joined back with commas. */
  function JoinCommas(ts: seq<string>): (s: string)
  {
    if ts == [] then "" else if |ts| == 1 then ts[0] else ts[0] + "," + JoinCommas(ts[1..])
  }

  /** Text of the list once its tokens are joined back: a trailing comma,
      which `Tokens` drops, is all that is missing. */
  function TrailingComma(s: string): (r: string)
  {
    if s != [] && s[|s| - 1] == ',' then "," else ""
  }

  /** Joining the tokens of a list that goes on after its first comma. */
  lemma JoinTokensUnfold(s: string)
    requires s != [] && AfterToken(s) != []
    ensures JoinCommas(Tokens(s)) == s[..IndexOf(s, ',')] + "," + JoinCommas(Tokens(AfterToken(s)))
  {
    var tr := Tokens(AfterToken(s));
    assert Tokens(s) == [s[..IndexOf(s, ',')]] + tr;
    assert ([s[..IndexOf(s, ',')]] + tr)[1..] == tr;
  }

  /** A non-empty suffix of a list ends as the whole list does. */
  lemma TrailingCommaOfSuffix(s: string, j: nat)
    requires j < |s|
    ensures TrailingComma(s[j..]) == TrailingComma(s)
  {
    assert s[j..][|s| - j - 1] == s[|s| - 1];
  }

  /** A list is its first token, a comma and the text after that comma. */
  lemma SplitAtComma(s: string)
    requires s != [] && IndexOf(s, ',') < |s|
    ensures s == s[..IndexOf(s, ',')] + "," + AfterToken(s)
  {
    var k := IndexOf(s, ',');
    assert AfterToken(s) == s[k + 1..];
    SplitAround(s, k);
  }

  /** A string is what comes before index `k`, the character at `k` and
      what follows. */
  lemma SplitAround(s: string, k: nat)
    requires k < |s|
    ensures s == s[..k] + [s[k]] + s[k + 1..]
  {
  }

  /** No token holds a comma. */
  lemma {:induction false} TokensNoComma(s: string)
    ensures forall i :: 0 <= i < |Tokens(s)| ==> ',' !in Tokens(s)[i]
    decreases |s|
  {
    if s != [] {
      var rest := AfterToken(s);
      TokensNoComma(rest);
      var h := s[..IndexOf(s, ',')];
      assert Tokens(s) == [h] + Tokens(rest);
      NoCommaBefore(s);
      NoCommaCons(h, Tokens(rest));
    }
  }

  /** The text before the first comma holds none. */
  lemma NoCommaBefore(s: string)
    ensures ',' !in s[..IndexOf(s, ',')]
  {
    var h := s[..IndexOf(s, ',')];
    assert forall i :: 0 <= i < |h| ==> h[i] == s[i];
  }

  /** Adding a token without a comma in front of such tokens. */
  lemma NoCommaCons(h: string, ts: seq<string>)
    requires ',' !in h
    requires forall i :: 0 <= i < |ts| ==> ',' !in ts[i]
    ensures forall i :: 0 <= i < |[h] + ts| ==> ',' !in ([h] + ts)[i]
  {
    assert forall i :: 1 <= i < |[h] + ts| ==> ([h] + ts)[i] == ts[i - 1];
  }

  /** `Tokens` splits at every comma and loses nothing: joining the tokens
      with commas and adding back a trailing comma gives the list again. */
  lemma {:induction false} TokensJoin(s: string)
    ensures JoinCommas(Tokens(s)) + TrailingComma(s) == s
    decreases |s|
  {
    if s != [] {
      if IndexOf(s, ',') == |s| || AfterToken(s) == [] {
        JoinOneToken(s);
      } else {
        var rest := AfterToken(s);
        TokensJoin(rest);
        JoinFirstToken(s);
      }
    }
  }

  /** A list without a comma, or with a single one at its end, is one
      token. */
  lemma JoinOneToken(s: string)
    requires s != [] && (IndexOf(s, ',') == |s| || AfterToken(s) == [])
    ensures JoinCommas(Tokens(s)) + TrailingComma(s) == s
  {
    var h := s[..IndexOf(s, ',')];
    assert AfterToken(s) == [];
    assert Tokens(s) == [h] + Tokens([]);
    assert JoinCommas([h]) == h;
    OneTokenSplit(s);
  }

  /** Such a list is its token followed by its trailing comma, if any. */
  lemma OneTokenSplit(s: string)
    requires s != [] && (IndexOf(s, ',') == |s| || AfterToken(s) == [])
    ensures s == s[..IndexOf(s, ',')] + TrailingComma(s)
  {
    var k := IndexOf(s, ',');
    if k == |s| {
      assert TrailingComma(s) == [];
      WholeSlice(s, k);
    } else {
      assert AfterToken(s) == s[k + 1..];
      assert k == |s| - 1 && s[k] == ',';
      assert TrailingComma(s) == [','];
      LastCommaSlice(s, k);
    }
  }

  /** A string is its slice up to its length. */
  lemma WholeSlice(s: string, k: nat)
    requires k == |s|
    ensures s == s[..k] + []
  {
    assert s[..k] == s;
  }

  /** A string whose last character, at `k`, is a comma is its slice up to
      `k` followed by a comma. */
  lemma LastCommaSlice(s: string, k: nat)
    requires k == |s| - 1 && s[k] == ','
    ensures s == s[..k] + [',']
  {
    assert s == s[..k] + [s[k]];
  }

  /** Joining a list that goes on after its first comma, given that its
      rest joins back. */
  lemma JoinFirstToken(s: string)
    requires s != [] && IndexOf(s, ',') < |s| && AfterToken(s) != []
    requires JoinCommas(Tokens(AfterToken(s))) + TrailingComma(AfterToken(s)) == AfterToken(s)
    ensures JoinCommas(Tokens(s)) + TrailingComma(s) == s
  {
    var k := IndexOf(s, ',');
    var rest := AfterToken(s);
    var h := s[..k];
    assert rest == s[k + 1..];
    JoinTokensUnfold(s);
    TrailingCommaOfSuffix(s, k + 1);
    SplitAtComma(s);
    Regroup(h, JoinCommas(Tokens(rest)), TrailingComma(rest), rest);
  }

  /** The text `h` and a comma before a rest that splits as `j + t`. */
  lemma Regroup(h: string, j: string, t: string, rest: string)
    requires j + t == rest
    ensures h + "," + j + t == h + "," + rest
  {
    assert h + "," + j + t == h + "," + (j + t);
  }

  /** The result of `parse_and_count_integers`: the number of tokens, or -1
      as soon as one of them is not a number. */
  function CountNumbers(s: string): (r: int)
    ensures -1 <= r
    decreases |s|
  {
    if s == [] then 0
    else if !ValidNumber(s[..IndexOf(s, ',')]) then -1
    else
      var rest := CountNumbers(AfterToken(s));
      if rest == -1 then -1 else rest + 1
  }

  /** Every token of the list is a number. */
  predicate AllNumbers(ts: seq<string>)
  {
    forall i :: 0 <= i < |ts| ==> ValidNumber(ts[i])
  }

  /** `parse_and_count_integers` counts the tokens when every one of them is
      a number and answers -1 otherwise. */
  lemma {:induction false} CountNumbersMeaning(s: string)
    ensures AllNumbers(Tokens(s)) ==> CountNumbers(s) == |Tokens(s)|
    ensures !AllNumbers(Tokens(s)) ==> CountNumbers(s) == -1
    decreases |s|
  {
    if s != [] {
      var rest := AfterToken(s);
      CountNumbersMeaning(rest);
      var h := s[..IndexOf(s, ',')];
      assert Tokens(s) == [h] + Tokens(rest);
      AllNumbersCons(h, Tokens(rest));
    }
  }

  /** A list of tokens headed by `h` is all numbers exactly when `h` and the
      tokens after it are. */
  lemma AllNumbersCons(h: string, ts: seq<string>)
    ensures AllNumbers([h] + ts) <==> ValidNumber(h) && AllNumbers(ts)
  {
    var us := [h] + ts;
    assert us[0] == h;
    assert forall i :: 0 <= i < |ts| ==> us[i + 1] == ts[i];
  }

  /** An empty list has no tokens, and one trailing comma changes nothing. */
  lemma TrailingCommaAccepted(s: string)
    requires s != [] && s[|s| - 1] != ','
    ensures CountNumbers([]) == 0
    ensures CountNumbers(s + ",") == CountNumbers(s)
  {
    TokensTrailingComma(s);
    CountNumbersMeaning(s);
    CountNumbersMeaning(s + ",");
  }

  /** Searching a concatenation: the first hit in `a`, else the first hit
      in `b` shifted past `a`. */
  lemma IndexOfAppend(a: string, b: string, c: char)
    ensures IndexOf(a + b, c) == if IndexOf(a, c) < |a| then IndexOf(a, c) else |a| + IndexOf(b, c)
  {
    var ab := a + b;
    var k := if IndexOf(a, c) < |a| then IndexOf(a, c) else |a| + IndexOf(b, c);
    assert forall i :: 0 <= i < |a| ==> ab[i] == a[i];
    assert forall i :: |a| <= i < |ab| ==> ab[i] == b[i - |a|];
    assert k <= |ab| && (k < |ab| ==> ab[k] == c);
    assert forall i :: 0 <= i < k ==> ab[i] != c;
  }

  /** A trailing comma adds no token. */
  lemma {:induction false} TokensTrailingComma(s: string)
    requires s != [] && s[|s| - 1] != ','
    ensures Tokens(s + ",") == Tokens(s)
    decreases |s|
  {
    var t := s + ",";
    var k := IndexOf(s, ',');
    IndexOfAppend(s, ",", ',');
    assert t[..k] == s[..k];
    if k < |s| {
      var rest := AfterToken(s);
      assert AfterToken(t) == rest + ",";
      assert |rest| > 0;
      assert rest[|rest| - 1] == s[|s| - 1];
      TokensTrailingComma(rest);
    } else {
      assert AfterToken(t) == [];
    }
  }

  /** Lists the parser accepts: a list with a signed token counts its
      tokens, and the empty list counts 0. */
  lemma CountNumbersAccepted()
    ensures CountNumbers("1,-2,3") == 3
    ensures CountNumbers("") == 0
  {
    var a, b, c := "1,-2,3", "-2,3", "3";
    assert IndexOf(c, ',') == 1 && AfterToken(c) == [];
    assert ValidNumber(c);
    assert CountNumbers(c) == 1;
    assert IndexOf(b, ',') == 2 && b[..2] == "-2" && AfterToken(b) == c;
    assert ValidNumber(b[..2]);
    assert CountNumbers(b) == 2;
    assert IndexOf(a, ',') == 1 && a[..1] == "1" && AfterToken(a) == b;
    assert ValidNumber(a[..1]);
  }

  /** Lists the parser rejects: an empty token, a lone sign and a blank
      after a comma all give -1. */
  lemma CountNumbersRejected()
    ensures CountNumbers("1,,2") == -1
    ensures CountNumbers("+") == -1
    ensures CountNumbers("1, 2") == -1
  {
    var d, e := "1,,2", ",2";
    assert IndexOf(e, ',') == 0 && !ValidNumber(e[..0]);
    assert CountNumbers(e) == -1;
    assert IndexOf(d, ',') == 1 && d[..1] == "1" && ValidNumber(d[..1]) && AfterToken(d) == e;
    var f, g := "1, 2", " 2";
    assert IndexOf(g, ',') == 2 && g[..2] == g && !IsDigit(g[0]);
    assert CountNumbers(g) == -1;
    assert IndexOf(f, ',') == 1 && f[..1] == "1" && ValidNumber(f[..1]) && AfterToken(f) == g;
    assert IndexOf("+", ',') == 1 && "+"[..1] == "+" && !ValidNumber("+");
  }

  /** The parse result once `count` tokens are behind and `rest` is the
      verdict on the remaining text. */
  function Continue(count: nat, rest: int): (r: int)
  {
    if rest == -1 then -1 else count + rest
  }

  /** `parse_and_count_integers` (file.c): walks the list token by token and
      answers -1 at the first token that is not a number. */
  method ParseAndCountIntegers(input: string) returns (count: int)
    ensures count == CountNumbers(input)
  {
    count := 0;
    var ptr := 0;
    while ptr < |input|
      invariant ptr <= |input| && 0 <= count
      invariant CountNumbers(input) == Continue(count, CountNumbers(input[ptr..]))
      decreases |input| - ptr
    {
      var s := input[ptr..];
      var end := ptr + IndexOf(s, ',');
      var token := input[ptr..end];
      assert token == s[..IndexOf(s, ',')];
      var ok := CheckNumber(token);
      if !ok {
        return -1;
      }
      count := count + 1;
      ptr := if end < |input| then end + 1 else end;
      assert input[ptr..] == AfterToken(s);
    }
  }

  /** The checks `parse_and_count_integers` makes on one token: rejecting an
      empty or over-long token, a sign without digits and any other
      character than a digit. */
  method CheckNumber(token: string) returns (ok: bool)
    ensures ok == ValidNumber(token)
  {
    if |token| == 0 || |token| >= 20 {
      return false;
    }
    var p := 0;
    if token[p] == '+' || token[p] == '-' {
      p := 1;
    }
    if p == |token| {
      return false;
    }
    var first := p;
    assert first == SignLength(token);
    while p < |token|
      invariant first <= p <= |token|
      invariant forall i :: first <= i < p ==> IsDigit(token[i])
    {
      if !IsDigit(token[p]) {
        return false;
      }
      p := p + 1;
    }
    return true;
  }

  // ---------------------------------------------------------------------
  // handle_data

  /** The trimmed operand text after the first occurrence of a directive
      keyword, as `handle_data` copies it into `data`. */
  function Operand(line: string, keyword: string): (r: string)
    requires Occurs(line, keyword)
  {
    Trimmed(line[FindSub(line, keyword).value + |keyword|..])
  }

  /** The two quote checks on a `.string` operand: it must open and close
      with a double quote. */
  predicate StringQuotesOk(data: string)
  {
    data != [] && data[0] == '"' && data[|data| - 1] == '"'
  }

  /** What a line does to the run: whether it sets the error flag and how
      many words it adds to the instruction counter. */
  datatype Effect = Effect(fails: bool, words: nat)

  /** `handle_data`: a `.string` line is checked for its quotes and adds no
      words (its character count is not part of this model); a `.data` line
      adds one word per number, or fails and adds none. */
  function DataEffect(line: string): (e: Effect)
    requires HasDataDirective(line)
    ensures e.fails ==> e.words == 0
    ensures Occurs(line, StringKeyword) ==> e.words == 0
  {
    if Occurs(line, StringKeyword) then
      Effect(!StringQuotesOk(Operand(line, StringKeyword)), 0)
    else
      var c := CountNumbers(Operand(line, DataKeyword));
      if c == -1 then Effect(true, 0) else Effect(false, c)
  }

  /** `handle_instruction`: an unknown line fails, a data directive goes to
      `handle_data`, an instruction (whose branch is empty) changes nothing. */
  function InstructionEffect(line: string): (e: Effect)
    ensures e.fails ==> e.words == 0
    ensures !HasDataDirective(line) ==> e.words == 0 && (e.fails <==> CountRegisters(line) == -1)
  {
    var c := CountRegisters(line);
    if c == -1 then Effect(true, 0)
    else if c == 3 then DataEffect(line)
    else Effect(false, 0)
  }

  /** On a `.data` line the counter advances by exactly the number of
      tokens when all of them are numbers; otherwise the line fails and the
      counter stays. */
  lemma DataLineEffect(line: string)
    requires Occurs(line, DataKeyword) && !Occurs(line, StringKeyword)
    ensures var ts := Tokens(Operand(line, DataKeyword));
      InstructionEffect(line) == if AllNumbers(ts) then Effect(false, |ts|) else Effect(true, 0)
  {
    CountNumbersMeaning(Operand(line, DataKeyword));
  }

  /** A `.string` line never moves the counter; it fails exactly when its
      operand lacks the opening or the closing quote. */
  lemma StringLineEffect(line: string)
    requires Occurs(line, StringKeyword)
    ensures InstructionEffect(line).words == 0
    ensures InstructionEffect(line).fails <==> !StringQuotesOk(Operand(line, StringKeyword))
  {
  }

  /** The `.string` branch as file.c writes it: the opening-quote test reads
      `line`, which for a directive starts with `.string`, and the counting
      loop returns at the first quote, so the closing test is never reached. */
  function StringEffectAsWritten(line: string): (e: Effect)
  {
    if line == [] || line[0] != '"' then Effect(true, 0) else Effect(false, 1)
  }

  /** As written, every line that starts with `.string` is rejected, however
      well quoted; checking the operand, every quoted operand is accepted. */
  lemma StringCheckFinding(content: string)
    ensures var line := StringKeyword + " \"" + content + "\"";
      StringEffectAsWritten(line).fails &&
      HasDataDirective(line) && !InstructionEffect(line).fails
  {
    var line := StringKeyword + " \"" + content + "\"";
    FindSubOfPrefix(line, StringKeyword);
    var q := "\"" + content + "\"";
    assert line[|StringKeyword|..] == " " + q;
    assert LeadingSpaces(" " + q) == 1;
    assert (" " + q)[1..] == q;
    TrimmedOfTrimmed(q);
    assert Operand(line, StringKeyword) == q;
  }
}

=== FILE: firstpass.dfy ===
/** One iteration of `parser` (file.c) as a function on the pass's state,
    with the handlers it dispatches to. The class in `Assembler` runs the same
    steps imperatively and is proved against these functions. */
module FirstPass {
  import opened Wrappers
  import opened Lexer
  import opened Directives
  import opened Macros

  /** The state the pass keeps between lines: the index of the next line to
      read (the position of the `FILE *`), the four tables, the global error
      flag, the instruction counter, and the macro mode with the macro being
      defined. */
  datatype State = State(
    pos: nat,
    macros: seq<Macro>,
    labels: seq<string>,
    externs: seq<string>,
    entries: seq<string>,
    error: bool,
    ic: nat,
    inMcro: bool,
    currentMcro: string)

  /** The instruction counter starts at address 100. */
  const InitialIC: nat := 100

  /** The state before the first line: empty tables, no error. */
  function Start(): (st: State)
    ensures st.pos == 0 && st.ic == InitialIC && !st.error && !st.inMcro
    ensures st.macros == [] && st.labels == [] && st.externs == [] && st.entries == []
  {
    State(0, [], [], [], [], false, InitialIC, false, "")
  }

  // ---------------------------------------------------------------------
  // consume_mcro

  /** The line index after `consume_mcro` returns: just past the first line
      from `from` on whose trimmed text starts with `mcroend`, or the end of
      the input when there is none. */
  function SkipPastMcroEnd(input: seq<string>, from: nat): (r: nat)
    requires from <= |input|
    ensures from <= r <= |input|
    ensures r == from <==> from == |input|
    ensures forall i :: from <= i < r - 1 ==> !IsMcroEnd(Trimmed(input[i]))
    ensures r < |input| ==> IsMcroEnd(Trimmed(input[r - 1]))
    decreases |input| - from
  {
    if from == |input| then from
    else if IsMcroEnd(Trimmed(input[from])) then from + 1
    else SkipPastMcroEnd(input, from + 1)
  }

  // ---------------------------------------------------------------------
  // The handlers

  /** `add_mcro` on the trimmed definition line: the name after `mcro ` is
      scanned; a name that does not start with a letter sets the error flag;
      trailing text skips the body without setting it; a name already taken
      by a macro or a label skips the body and sets it; otherwise the name is
      registered with an empty body. The macro being defined becomes the
      registered name, or none when the definition was rejected, and macro
      mode stays on unless the body has already been skipped. */
  function AddMcroOf(input: seq<string>, st: State, line: string): (r: State)
    requires IsMcroDef(line) && st.pos <= |input|
    ensures st.pos <= r.pos <= |input|
  {
    var s := Trimmed(line[|McroKeyword|..]);
    match ScanOf(s)
    case BadStart => st.(error := true, inMcro := true, currentMcro := "")
    case Trailing(_) => st.(pos := SkipPastMcroEnd(input, st.pos), inMcro := false, currentMcro := "")
    case Accepted(name) =>
      if name in Names(st.macros) || name in st.labels then
        st.(pos := SkipPastMcroEnd(input, st.pos), error := true, inMcro := false, currentMcro := "")
      else
        st.(macros := st.macros + [Macro(name, [])], inMcro := true, currentMcro := name)
  }

  /** A definition line as `parser` handles it: macro mode is switched on
      before `add_mcro` runs and stays on even when `add_mcro` has already
      skipped the body. */
  function DefinitionAsWritten(input: seq<string>, st: State, line: string): (r: State)
    requires IsMcroDef(line) && st.pos <= |input|
  {
    AddMcroOf(input, st, line).(inMcro := true)
  }

  /** `handle_extern`: the name after `.extern` is scanned; a bad first
      character sets the error flag, trailing text is ignored without an
      error, and a name already declared sets the error flag; otherwise the
      name is declared. */
  function ExternOf(st: State, line: string): (r: State)
    requires IsExtern(line)
    ensures r == st.(error := r.error, externs := r.externs) && (st.error ==> r.error)
    ensures r.externs == st.externs ||
      (|r.externs| == |st.externs| + 1 && r.externs[..|st.externs|] == st.externs &&
       IsName(r.externs[|st.externs|]) && r.externs[|st.externs|] !in st.externs)
  {
    var s := Trimmed(line[|ExternKeyword|..]);
    match ScanOf(s)
    case BadStart => st.(error := true)
    case Trailing(_) => st
    case Accepted(name) =>
      if name in st.externs then st.(error := true) else st.(externs := st.externs + [name])
  }

  /** `handle_extern` as file.c writes it: the duplicate check compares the
      whole trimmed text after `.extern`, comment included, with the names
      declared so far. */
  function ExternOfAsWritten(st: State, line: string): (r: State)
    requires IsExtern(line)
  {
    var s := Trimmed(line[|ExternKeyword|..]);
    match ScanOf(s)
    case BadStart => st.(error := true)
    case Trailing(_) => st
    case Accepted(name) =>
      if s in st.externs then st.(error := true) else st.(externs := st.externs + [name])
  }

  /** `handle_entry`: as `handle_extern` without the duplicate check. The
      entry recorded is the scanned name, the text the copy at file.c:344
      is evidently meant to cut the operand down to. */
  function EntryOf(st: State, line: string): (r: State)
    requires IsEntry(line)
    ensures r == st.(error := r.error, entries := r.entries) && (st.error ==> r.error)
    ensures r.entries == st.entries ||
      (|r.entries| == |st.entries| + 1 && r.entries[..|st.entries|] == st.entries &&
       IsName(r.entries[|st.entries|]))
  {
    var s := Trimmed(line[|EntryKeyword|..]);
    match ScanOf(s)
    case BadStart => st.(error := true)
    case Trailing(_) => st
    case Accepted(name) => st.(entries := st.entries + [name])
  }

  /** `handle_entry` as file.c writes it: the copy at file.c:344 has the
      same source and destination, which C leaves undefined and which at
      best leaves the buffer as it is, so the entry recorded is the whole
      trimmed text after `.entry`, comment included. */
  function EntryOfAsWritten(st: State, line: string): (r: State)
    requires IsEntry(line)
  {
    var s := Trimmed(line[|EntryKeyword|..]);
    match ScanOf(s)
    case BadStart => st.(error := true)
    case Trailing(_) => st
    case Accepted(_) => st.(entries := st.entries + [s])
  }

  /** `handle_instruction` (and `handle_data` behind it): the line's effect
      on the error flag and the counter. */
  function InstructionOf(st: State, line: string): (r: State)
    ensures r == st.(error := r.error, ic := r.ic) && (st.error ==> r.error) && st.ic <= r.ic
  {
    var e := InstructionEffect(line);
    st.(error := st.error || e.fails, ic := st.ic + e.words)
  }

  /** `handle_label`: a line that does not start with a letter sets the error
      flag; a name not followed at once by `:` is dropped without an error;
      otherwise the name is recorded and the trimmed rest of the line is
      handled as an instruction. */
  function LabelOf(st: State, line: string): (r: State)
    ensures r == st.(error := r.error, ic := r.ic, labels := r.labels) && (st.error ==> r.error) && st.ic <= r.ic
    ensures r.labels == st.labels ||
      (|r.labels| == |st.labels| + 1 && r.labels[..|st.labels|] == st.labels &&
       IsName(r.labels[|st.labels|]))
  {
    var text := Trimmed(line);
    if text == [] || !IsAlpha(text[0]) then st.(error := true)
    else
      var n := NameLength(text);
      if n == |text| || text[n] != ':' then st
      else InstructionOf(st.(labels := st.labels + [text[..n]]), Trimmed(text[n + 1..]))
  }

  /** The line is blank or a comment. */
  predicate IsBlankOrComment(line: string)
  {
    line == [] || line[0] == ';'
  }

  /** The branches of `parser`'s loop that follow the macro tests, in their
      order: blank or comment, `.extern`, `.entry`, label, instruction, macro
      call (whose handler does nothing yet), and anything else, an error. */
  function DispatchOf(st: State, line: string): (r: State)
    ensures r.pos == st.pos
  {
    if IsBlankOrComment(line) then st
    else if IsExtern(line) then ExternOf(st, line)
    else if IsEntry(line) then EntryOf(st, line)
    else if IsLabel(line) then LabelOf(st, line)
    else if CountRegisters(line) != -1 then InstructionOf(st, line)
    else if MacroIndex(st.macros, line).Some? then st
    else st.(error := true)
  }

  /** One iteration of `parser`'s loop on the next line of the input. */
  function StepOf(input: seq<string>, st: State): (r: State)
    requires st.pos < |input|
    ensures st.pos < r.pos <= |input|
  {
    var line := Trimmed(input[st.pos]);
    var next := st.(pos := st.pos + 1);
    if st.inMcro then
      if IsMcroEnd(line) then next.(inMcro := false)
      else next.(macros := AppendLine(st.macros, st.currentMcro, line))
    else if IsMcroDef(line) then AddMcroOf(input, next, line)
    else DispatchOf(next, line)
  }

  /** The pass from `st` to the end of the input. */
  function Run(input: seq<string>, st: State): (r: State)
    requires st.pos <= |input|
    ensures r.pos == |input|
    decreases |input| - st.pos
  {
    if st.pos == |input| then st else Run(input, StepOf(input, st))
  }

  /** At most `n` iterations from `st`. */
  function Steps(input: seq<string>, st: State, n: nat): (r: State)
    requires st.pos <= |input|
    ensures st.pos <= r.pos <= |input|
    decreases n
  {
    if n == 0 || st.pos == |input| then st else Steps(input, StepOf(input, st), n - 1)
  }

  // ---------------------------------------------------------------------
  // Invariants

  /** What holds of the state throughout the pass: the cursor is inside the
      input, the counter never goes below its start, macro names are names
      and distinct, labels, externs and entries are names, and the macro being defined (if any) is registered. */
  predicate Inv(input: seq<string>, st: State)
  {
    st.pos <= |input| && st.ic >= InitialIC &&
    DistinctNames(st.macros) && MacroNamesValid(st.macros) &&
    AllNames(st.labels) && AllNames(st.externs) && AllNames(st.entries) &&
    (st.currentMcro == "" || st.currentMcro in Names(st.macros))
  }

  /** Every macro of the table is named by a name. */
  predicate MacroNamesValid(macros: seq<Macro>)
  {
    forall i :: 0 <= i < |macros| ==> IsName(macros[i].name)
  }

  /** Every text of the list is a name. */
  predicate AllNames(xs: seq<string>)
  {
    forall x :: x in xs ==> IsName(x)
  }

  /** `b` is a later state than `a`: the error flag is never cleared, the
      counter never decreases, and every table only grows at its end. */
  predicate Grows(a: State, b: State)
  {
    (a.error ==> b.error) && a.ic <= b.ic && a.pos <= b.pos &&
    Names(a.macros) <= Names(b.macros) &&
    a.labels <= b.labels && a.externs <= b.externs && a.entries <= b.entries
  }

  lemma GrowsTransitive(a: State, b: State, c: State)
    requires Grows(a, b) && Grows(b, c)
    ensures Grows(a, c)
  {
  }

  /** The initial state satisfies the invariant. */
  lemma StartInv(input: seq<string>)
    ensures Inv(input, Start())
  {
  }

  /** Appending a body line keeps every macro name a name. */
  lemma AppendLineKeepsNames(macros: seq<Macro>, name: string, line: string)
    requires forall i :: 0 <= i < |macros| ==> IsName(macros[i].name)
    ensures var r := AppendLine(macros, name, line);
      forall i :: 0 <= i < |r| ==> IsName(r[i].name)
  {
    var r := AppendLine(macros, name, line);
    forall i | 0 <= i < |r| ensures IsName(r[i].name) {
      assert r[i].name == Names(r)[i] == Names(macros)[i] == macros[i].name;
    }
  }

  /** A state whose tables are those of a valid state, whose cursor is in
      the input and whose counter has not gone down is valid. */
  lemma SameTablesInv(input: seq<string>, st: State, r: State)
    requires Inv(input, st)
    requires r.macros == st.macros && r.labels == st.labels
    requires r.externs == st.externs && r.entries == st.entries
    requires r.pos <= |input| && st.ic <= r.ic
    requires r.currentMcro == "" || r.currentMcro == st.currentMcro
    ensures Inv(input, r)
  {
  }

  /** Registering a fresh macro name keeps the invariant and grows the
      names. */
  lemma RegisterKeepsInv(input: seq<string>, st: State, name: string)
    requires Inv(input, st) && IsName(name) && name !in Names(st.macros)
    ensures var r := st.(macros := st.macros + [Macro(name, [])], currentMcro := name);
      Inv(input, r) && Grows(st, r)
  {
    AddKeepsDistinct(st.macros, name);
    NamesAppend(st.macros, Macro(name, []));
  }

  /** `add_mcro` keeps the invariant and only grows the state. */
  lemma AddMcroKeepsInv(input: seq<string>, st: State, line: string)
    requires Inv(input, st) && IsMcroDef(line)
    ensures Inv(input, AddMcroOf(input, st, line))
    ensures Grows(st, AddMcroOf(input, st, line))
  {
    var r := AddMcroOf(input, st, line);
    var scan := ScanOf(Trimmed(line[|McroKeyword|..]));
    if scan.Accepted? && !(scan.name in Names(st.macros) || scan.name in st.labels) {
      RegisterKeepsInv(input, st, scan.name);
    } else {
      SameTablesInv(input, st, r);
    }
  }

  /** `handle_extern` keeps the invariant and only grows the state. */
  lemma ExternKeepsInv(input: seq<string>, st: State, line: string)
    requires Inv(input, st) && IsExtern(line)
    ensures Inv(input, ExternOf(st, line)) && Grows(st, ExternOf(st, line))
  {
    var s := Trimmed(line[|ExternKeyword|..]);
    var scan := ScanOf(s);
    var r := ExternOf(st, line);
    if scan.Accepted? && scan.name !in st.externs {
      assert r == st.(externs := st.externs + [scan.name]);
      assert IsName(scan.name);
    } else {
      assert r.externs == st.externs;
      SameTablesInv(input, st, r);
    }
  }

  /** `handle_entry` keeps the invariant and only grows the state. */
  lemma EntryKeepsInv(input: seq<string>, st: State, line: string)
    requires Inv(input, st) && IsEntry(line)
    ensures Inv(input, EntryOf(st, line)) && Grows(st, EntryOf(st, line))
  {
    var s := Trimmed(line[|EntryKeyword|..]);
    var r := EntryOf(st, line);
    if ScanOf(s).Accepted? {
      assert r == st.(entries := st.entries + [ScanOf(s).name]);
    } else {
      assert r.entries == st.entries;
      SameTablesInv(input, st, r);
    }
  }

  /** `handle_label` keeps the invariant and only grows the state. */
  lemma LabelKeepsInv(input: seq<string>, st: State, line: string)
    requires Inv(input, st)
    ensures Inv(input, LabelOf(st, line)) && Grows(st, LabelOf(st, line))
  {
    var text := Trimmed(line);
    if text == [] || !IsAlpha(text[0]) {
      assert LabelOf(st, line) == st.(error := true);
    } else {
      var n := NameLength(text);
      if n < |text| && text[n] == ':' {
        var st1 := st.(labels := st.labels + [text[..n]]);
        var rest := Trimmed(text[n + 1..]);
        assert LabelOf(st, line) == InstructionOf(st1, rest);
        assert Inv(input, st1) && Grows(st, st1);
        InstructionKeepsInv(input, st1, rest);
        GrowsTransitive(st, st1, InstructionOf(st1, rest));
      } else {
        assert LabelOf(st, line) == st;
      }
    }
  }

  /** Raising the error flag keeps the invariant. */
  lemma ErrorKeepsInv(input: seq<string>, st: State)
    requires Inv(input, st)
    ensures Inv(input, st.(error := true)) && Grows(st, st.(error := true))
  {
  }

  /** `handle_instruction` changes only the error flag and the counter,
      which it never decreases. */
  lemma InstructionKeepsInv(input: seq<string>, st: State, line: string)
    requires Inv(input, st)
    ensures Inv(input, InstructionOf(st, line)) && Grows(st, InstructionOf(st, line))
  {
    SameTablesInv(input, st, InstructionOf(st, line));
  }

  /** A body line keeps the invariant and only grows the state. */
  lemma BodyLineKeepsInv(input: seq<string>, st: State, line: string)
    requires Inv(input, st)
    ensures var r := st.(macros := AppendLine(st.macros, st.currentMcro, line));
      Inv(input, r) && Grows(st, r)
  {
    AppendLineKeepsDistinct(st.macros, st.currentMcro, line);
    AppendLineKeepsNames(st.macros, st.currentMcro, line);
  }

  /** A line outside a macro definition that is not a definition itself
      keeps the invariant and only grows the state. */
  lemma DispatchKeepsInv(input: seq<string>, st: State, line: string)
    requires Inv(input, st)
    ensures Inv(input, DispatchOf(st, line)) && Grows(st, DispatchOf(st, line))
  {
    if IsBlankOrComment(line) {
      assert DispatchOf(st, line) == st;
    } else if IsExtern(line) {
      assert DispatchOf(st, line) == ExternOf(st, line);
      ExternKeepsInv(input, st, line);
    } else if IsEntry(line) {
      assert DispatchOf(st, line) == EntryOf(st, line);
      EntryKeepsInv(input, st, line);
    } else if IsLabel(line) {
      assert DispatchOf(st, line) == LabelOf(st, line);
      LabelKeepsInv(input, st, line);
    } else if CountRegisters(line) != -1 {
      assert DispatchOf(st, line) == InstructionOf(st, line);
      InstructionKeepsInv(input, st, line);
    } else {
      assert DispatchOf(st, line).(error := true) == st.(error := true);
      ErrorKeepsInv(input, st);
    }
  }

  /** Inside a macro definition a line either ends it or joins the body of
      the macro being defined; either keeps the invariant. */
  lemma McroModeKeepsInv(input: seq<string>, st: State, line: string)
    requires Inv(input, st)
    ensures var r := if IsMcroEnd(line) then st.(inMcro := false)
      else st.(macros := AppendLine(st.macros, st.currentMcro, line));
      Inv(input, r) && Grows(st, r)
  {
    if !IsMcroEnd(line) {
      BodyLineKeepsInv(input, st, line);
    }
  }

  /** An iteration inside a macro definition keeps the invariant. */
  lemma StepInMcroKeepsInv(input: seq<string>, st: State)
    requires Inv(input, st) && st.pos < |input| && st.inMcro
    ensures Inv(input, StepOf(input, st)) && Grows(st, StepOf(input, st))
  {
    var next := st.(pos := st.pos + 1);
    StepInMcro(input, st);
    SameTablesInv(input, st, next);
    McroModeKeepsInv(input, next, Trimmed(input[st.pos]));
  }

  /** An iteration on a macro definition line keeps the invariant. */
  lemma StepOnDefKeepsInv(input: seq<string>, st: State)
    requires Inv(input, st) && st.pos < |input| && !st.inMcro
    requires IsMcroDef(Trimmed(input[st.pos]))
    ensures Inv(input, StepOf(input, st)) && Grows(st, StepOf(input, st))
  {
    var next := st.(pos := st.pos + 1);
    StepOnDef(input, st);
    SameTablesInv(input, st, next);
    AddMcroKeepsInv(input, next, Trimmed(input[st.pos]));
  }

  /** An iteration on any other line keeps the invariant. */
  lemma StepDispatchKeepsInv(input: seq<string>, st: State)
    requires Inv(input, st) && st.pos < |input| && !st.inMcro
    requires !IsMcroDef(Trimmed(input[st.pos]))
    ensures Inv(input, StepOf(input, st)) && Grows(st, StepOf(input, st))
  {
    var next := st.(pos := st.pos + 1);
    StepOnOther(input, st);
    SameTablesInv(input, st, next);
    DispatchKeepsInv(input, next, Trimmed(input[st.pos]));
  }

  /** Every iteration keeps the invariant and only grows the state. */
  lemma StepKeepsInv(input: seq<string>, st: State)
    requires Inv(input, st) && st.pos < |input|
    ensures Inv(input, StepOf(input, st))
    ensures Grows(st, StepOf(input, st))
  {
    if st.inMcro {
      StepInMcroKeepsInv(input, st);
    } else if IsMcroDef(Trimmed(input[st.pos])) {
      StepOnDefKeepsInv(input, st);
    } else {
      StepDispatchKeepsInv(input, st);
    }
  }

  /** The whole pass keeps the invariant, only grows the state, and reads
      every line of the input. */
  lemma {:induction false} RunKeepsInv(input: seq<string>, st: State)
    requires Inv(input, st)
    ensures Inv(input, Run(input, st))
    ensures Grows(st, Run(input, st))
    decreases |input| - st.pos
  {
    if st.pos < |input| {
      var st' := StepOf(input, st);
      StepKeepsInv(input, st);
      RunKeepsInv(input, st');
      GrowsTransitive(st, st', Run(input, st'));
    }
  }

  /** A pass from the start ends at the end of the input with the invariant
      holding. */
  lemma PassInv(input: seq<string>)
    ensures Inv(input, Run(input, Start()))
    ensures Run(input, Start()).pos == |input|
    ensures Run(input, Start()).ic >= InitialIC
  {
    StartInv(input);
    RunKeepsInv(input, Start());
  }

  // ---------------------------------------------------------------------
  // What the pass does with each kind of line

  /** The trimmed input lines from index `lo` up to `hi`, exclusive. */
  function TrimmedLines(input: seq<string>, lo: nat, hi: nat): (ls: seq<string>)
    requires lo <= hi <= |input|
    ensures |ls| == hi - lo
    ensures forall i :: 0 <= i < |ls| ==> ls[i] == Trimmed(input[lo + i])
    decreases hi - lo
  {
    if lo == hi then [] else [Trimmed(input[lo])] + TrimmedLines(input, lo + 1, hi)
  }

  /** With the names of a table unchanged, a name is found at the same
      index. */
  lemma MacroIndexSameNames(a: seq<Macro>, b: seq<Macro>, name: string)
    requires Names(a) == Names(b)
    ensures MacroIndex(a, name) == MacroIndex(b, name)
  {
    assert forall i :: 0 <= i < |a| ==> a[i].name == Names(a)[i] == Names(b)[i] == b[i].name;
  }

  /** An iteration inside a macro definition. */
  lemma StepInMcro(input: seq<string>, st: State)
    requires st.inMcro && st.pos < |input|
    ensures var line := Trimmed(input[st.pos]);
      StepOf(input, st) ==
        if IsMcroEnd(line) then st.(pos := st.pos + 1, inMcro := false)
        else st.(pos := st.pos + 1, macros := AppendLine(st.macros, st.currentMcro, line))
  {
  }

  /** An iteration on a definition line. */
  lemma StepOnDef(input: seq<string>, st: State)
    requires !st.inMcro && st.pos < |input| && IsMcroDef(Trimmed(input[st.pos]))
    ensures StepOf(input, st) == AddMcroOf(input, st.(pos := st.pos + 1), Trimmed(input[st.pos]))
  {
    var line := Trimmed(input[st.pos]);
    assert !st.inMcro && IsMcroDef(line);
  }

  /** An iteration on any other line outside macro mode goes to the line
      handlers. */
  lemma StepOnOther(input: seq<string>, st: State)
    requires !st.inMcro && st.pos < |input| && !IsMcroDef(Trimmed(input[st.pos]))
    ensures StepOf(input, st) == DispatchOf(st.(pos := st.pos + 1), Trimmed(input[st.pos]))
  {
    var line := Trimmed(input[st.pos]);
    var next := st.(pos := st.pos + 1);
    // The body of `StepOf`, except that the definition branch, which the
    // requires rule out, yields `st` instead of `AddMcroOf(input, next, line)`
    // (whose own requires could not be checked there).
    assert StepOf(input, st) ==
      if st.inMcro then
        if IsMcroEnd(line) then next.(inMcro := false)
        else next.(macros := AppendLine(st.macros, st.currentMcro, line))
      else if IsMcroDef(line) then st
      else DispatchOf(next, line);
  }

  /** `n + 1` iterations are one iteration followed by `n`. */
  lemma StepsUnfold(input: seq<string>, st: State, n: nat)
    requires st.pos < |input|
    ensures Steps(input, st, n + 1) == Steps(input, StepOf(input, st), n)
  {
  }

  /** Appending to the macro found at index `m` updates that entry alone. */
  lemma AppendLineAt(macros: seq<Macro>, name: string, line: string, m: nat)
    requires m < |macros| && MacroIndex(macros, name) == Some(m)
    ensures AppendLine(macros, name, line) == macros[m := Macro(name, macros[m].body + [line])]
  {
  }

  /** A body line of a registered macro is appended to that macro, which
      stays where it is in the table. */
  lemma StepOnBodyLine(input: seq<string>, st: State, m: nat)
    requires st.inMcro && st.pos < |input| && !IsMcroEnd(Trimmed(input[st.pos]))
    requires m < |st.macros| && MacroIndex(st.macros, st.currentMcro) == Some(m)
    ensures StepOf(input, st) == st.(pos := st.pos + 1,
      macros := st.macros[m := Macro(st.currentMcro, st.macros[m].body + [Trimmed(input[st.pos])])])
  {
    StepInMcro(input, st);
    AppendLineAt(st.macros, st.currentMcro, Trimmed(input[st.pos]), m);
  }

  /** A new body for the macro found at index `m` leaves it found there. */
  lemma SetBodyKeepsIndex(macros: seq<Macro>, name: string, m: nat, body: seq<string>)
    requires m < |macros| && MacroIndex(macros, name) == Some(m)
    ensures MacroIndex(macros[m := Macro(name, body)], name) == Some(m)
  {
    var ms := macros[m := Macro(name, body)];
    assert Names(ms) == Names(macros) by {
      assert forall i :: 0 <= i < |ms| ==> Names(ms)[i] == ms[i].name == macros[i].name == Names(macros)[i];
    }
    MacroIndexSameNames(macros, ms, name);
  }

  /** Inside the definition of a registered macro, the `k` lines before the
      next `mcroend` are appended, trimmed and in order, to that macro's body;
      the `mcroend` line then ends macro mode, and nothing else changes. */
  lemma {:induction false} BodyCollected(input: seq<string>, st: State, m: nat, k: nat)
    requires st.inMcro && m < |st.macros| && MacroIndex(st.macros, st.currentMcro) == Some(m)
    requires st.pos + k < |input|
    requires forall i :: st.pos <= i < st.pos + k ==> !IsMcroEnd(Trimmed(input[i]))
    requires IsMcroEnd(Trimmed(input[st.pos + k]))
    ensures var r := Steps(input, st, k + 1);
      r.pos == st.pos + k + 1 && !r.inMcro &&
      r.macros == st.macros[m := Macro(st.currentMcro, st.macros[m].body + TrimmedLines(input, st.pos, st.pos + k))] &&
      r.labels == st.labels && r.externs == st.externs && r.entries == st.entries &&
      r.error == st.error && r.ic == st.ic && r.currentMcro == st.currentMcro
    decreases k
  {
    var name := st.currentMcro;
    var body := st.macros[m].body;
    StepsUnfold(input, st, k);
    if k == 0 {
      StepInMcro(input, st);
      assert IsMcroEnd(Trimmed(input[st.pos]));
      assert TrimmedLines(input, st.pos, st.pos) == [];
      assert body + [] == body;
      assert st.macros[m := Macro(name, body)] == st.macros;
    } else {
      BodyLineThenRest(input, st, m, k);
    }
  }

  /** The inductive step of `BodyCollected`: one body line, then the rest. */
  lemma {:induction false} BodyLineThenRest(input: seq<string>, st: State, m: nat, k: nat)
    requires 0 < k
    requires st.inMcro && m < |st.macros| && MacroIndex(st.macros, st.currentMcro) == Some(m)
    requires st.pos + k < |input|
    requires forall i :: st.pos <= i < st.pos + k ==> !IsMcroEnd(Trimmed(input[i]))
    requires IsMcroEnd(Trimmed(input[st.pos + k]))
    ensures var r := Steps(input, StepOf(input, st), k);
      r.pos == st.pos + k + 1 && !r.inMcro &&
      r.macros == st.macros[m := Macro(st.currentMcro, st.macros[m].body + TrimmedLines(input, st.pos, st.pos + k))] &&
      r.labels == st.labels && r.externs == st.externs && r.entries == st.entries &&
      r.error == st.error && r.ic == st.ic && r.currentMcro == st.currentMcro
    decreases k, 0
  {
    var name := st.currentMcro;
    var body := st.macros[m].body;
    var line := Trimmed(input[st.pos]);
    var ms := st.macros[m := Macro(name, body + [line])];
    StepOnBodyLine(input, st, m);
    SetBodyKeepsIndex(st.macros, name, m, body + [line]);
    BodyCollected(input, st.(pos := st.pos + 1, macros := ms), m, k - 1);
    var rest := TrimmedLines(input, st.pos + 1, st.pos + k);
    assert TrimmedLines(input, st.pos, st.pos + k) == [line] + rest;
    ExtendBody(st.macros, m, name, body, line, rest);
  }

  /** A definition line with a fresh name registers it with an empty body
      and enters macro mode for it. */
  lemma StepOnFreshDef(input: seq<string>, st: State, name: string)
    requires !st.inMcro && st.pos < |input|
    requires IsMcroDef(Trimmed(input[st.pos]))
    requires ScanOf(Trimmed(Trimmed(input[st.pos])[|McroKeyword|..])) == Accepted(name)
    requires name !in Names(st.macros) && name !in st.labels
    ensures StepOf(input, st) == st.(pos := st.pos + 1, macros := st.macros + [Macro(name, [])],
      inMcro := true, currentMcro := name)
  {
    StepOnDef(input, st);
  }

  /** A definition `mcro NAME` of a fresh name, followed by `k` body lines
      and `mcroend`, registers NAME with those lines, trimmed, as its body
      and leaves macro mode; nothing else changes. */
  lemma MacroDefinitionRecorded(input: seq<string>, st: State, name: string, k: nat)
    requires !st.inMcro && st.pos + 1 + k < |input|
    requires IsMcroDef(Trimmed(input[st.pos]))
    requires ScanOf(Trimmed(Trimmed(input[st.pos])[|McroKeyword|..])) == Accepted(name)
    requires name !in Names(st.macros) && name !in st.labels
    requires forall i :: st.pos + 1 <= i < st.pos + 1 + k ==> !IsMcroEnd(Trimmed(input[i]))
    requires IsMcroEnd(Trimmed(input[st.pos + 1 + k]))
    ensures var r := Steps(input, st, k + 2);
      r.pos == st.pos + k + 2 && !r.inMcro &&
      r.macros == st.macros + [Macro(name, TrimmedLines(input, st.pos + 1, st.pos + 1 + k))] &&
      r.labels == st.labels && r.externs == st.externs && r.entries == st.entries &&
      r.error == st.error && r.ic == st.ic && r.currentMcro == name
  {
    StepOnFreshDef(input, st, name);
    StepsUnfold(input, st, k + 1);
    FreshBodyCollected(input, st, name, k);
  }

  /** The part of `MacroDefinitionRecorded` after the definition line: from
      the state that line leaves, the body is collected into the new macro. */
  lemma FreshBodyCollected(input: seq<string>, st: State, name: string, k: nat)
    requires st.pos + 1 + k < |input|
    requires name !in Names(st.macros)
    requires forall i :: st.pos + 1 <= i < st.pos + 1 + k ==> !IsMcroEnd(Trimmed(input[i]))
    requires IsMcroEnd(Trimmed(input[st.pos + 1 + k]))
    ensures var r := Steps(input, st.(pos := st.pos + 1, macros := st.macros + [Macro(name, [])],
        inMcro := true, currentMcro := name), k + 1);
      r.pos == st.pos + k + 2 && !r.inMcro &&
      r.macros == st.macros + [Macro(name, TrimmedLines(input, st.pos + 1, st.pos + 1 + k))] &&
      r.labels == st.labels && r.externs == st.externs && r.entries == st.entries &&
      r.error == st.error && r.ic == st.ic && r.currentMcro == name
  {
    var st1 := st.(pos := st.pos + 1, macros := st.macros + [Macro(name, [])], inMcro := true, currentMcro := name);
    AddedMacroIndex(st.macros, name);
    assert st1.pos + k == st.pos + 1 + k;
    BodyCollected(input, st1, |st.macros|, k);
    FillNewBody(st.macros, name, TrimmedLines(input, st.pos + 1, st.pos + 1 + k));
  }

  /** A rejected definition whose body `add_mcro` has skipped leaves macro
      mode; as file.c writes it, macro mode stays on and no macro is being
      defined, so every line after the skipped body up to the next `mcroend`
      is dropped without a diagnostic. */
  lemma SkippedBodyFinding(input: seq<string>, st: State)
    requires !st.inMcro && st.pos < |input|
    requires IsMcroDef(Trimmed(input[st.pos]))
    requires ScanOf(Trimmed(Trimmed(input[st.pos])[|McroKeyword|..])).Trailing?
    requires Inv(input, st)
    ensures var line := Trimmed(input[st.pos]);
      var fixed := StepOf(input, st);
      var written := DefinitionAsWritten(input, st.(pos := st.pos + 1), line);
      !fixed.inMcro && written.inMcro && written.currentMcro == "" &&
      fixed.pos == written.pos == SkipPastMcroEnd(input, st.pos + 1) &&
      fixed.error == written.error == st.error &&
      (written.pos < |input| && !IsMcroEnd(Trimmed(input[written.pos])) ==>
        StepOf(input, written) == written.(pos := written.pos + 1))
  {
    var written := StepOnTrailingDef(input, st);
    if written.pos < |input| && !IsMcroEnd(Trimmed(input[written.pos])) {
      BodyLineIgnored(input, written);
    }
  }

  /** On a definition whose name has trailing text, the body is skipped;
      `written` is the state the definition line leaves as file.c runs it. */
  lemma StepOnTrailingDef(input: seq<string>, st: State) returns (written: State)
    requires !st.inMcro && st.pos < |input|
    requires IsMcroDef(Trimmed(input[st.pos]))
    requires ScanOf(Trimmed(Trimmed(input[st.pos])[|McroKeyword|..])).Trailing?
    ensures var skipped := st.(pos := SkipPastMcroEnd(input, st.pos + 1), inMcro := false, currentMcro := "");
      StepOf(input, st) == skipped &&
      DefinitionAsWritten(input, st.(pos := st.pos + 1), Trimmed(input[st.pos])) == written &&
      written == skipped.(inMcro := true)
  {
    var line := Trimmed(input[st.pos]);
    var next := st.(pos := st.pos + 1);
    var skipped := next.(pos := SkipPastMcroEnd(input, st.pos + 1), inMcro := false, currentMcro := "");
    assert AddMcroOf(input, next, line) == skipped;
    StepOnDef(input, st);
    written := skipped.(inMcro := true);
  }

  /** A definition whose name is already taken, by a macro or by a label,
      sets the error flag, skips the body up to the next `mcroend` and
      leaves every table and the counter as they were. */
  lemma DuplicateMacroRejected(input: seq<string>, st: State, line: string, name: string)
    requires IsMcroDef(line) && st.pos <= |input|
    requires ScanOf(Trimmed(line[|McroKeyword|..])) == Accepted(name)
    requires name in Names(st.macros) || name in st.labels
    ensures var r := AddMcroOf(input, st, line);
      r.error && !r.inMcro && r.currentMcro == "" && r.pos == SkipPastMcroEnd(input, st.pos) &&
      r.macros == st.macros && r.labels == st.labels && r.externs == st.externs &&
      r.entries == st.entries && r.ic == st.ic
  {
  }

  /** A definition whose name does not start with a letter sets the error
      flag and adds nothing; the body is not skipped, and macro mode stays
      on with no current macro. */
  lemma BadStartMacro(input: seq<string>, st: State, line: string)
    requires IsMcroDef(line) && st.pos <= |input|
    requires var s := Trimmed(line[|McroKeyword|..]); s == [] || !IsAlpha(s[0])
    ensures var r := AddMcroOf(input, st, line);
      r.error && r.inMcro && r.currentMcro == "" && r.pos == st.pos &&
      r.macros == st.macros && r.labels == st.labels && r.externs == st.externs &&
      r.entries == st.entries && r.ic == st.ic
  {
  }

  /** In macro mode with no current macro, a body line changes nothing
      but the position: no macro has the empty name. */
  lemma BodyLineIgnored(input: seq<string>, st: State)
    requires st.inMcro && st.currentMcro == "" && st.pos < |input|
    requires MacroNamesValid(st.macros)
    requires !IsMcroEnd(Trimmed(input[st.pos]))
    ensures StepOf(input, st) == st.(pos := st.pos + 1)
  {
    forall i | 0 <= i < |st.macros| ensures Names(st.macros)[i] != "" {
      assert IsName(st.macros[i].name);
    }
    StepInMcro(input, st);
    AppendLineUnknown(st.macros, "", Trimmed(input[st.pos]));
  }

  /** `.extern NAME` declares NAME, or sets the error flag when NAME is
      already declared. */
  lemma ExternDeclared(st: State, name: string)
    requires IsName(name)
    ensures IsExtern(ExternKeyword + " " + name)
    ensures ExternOf(st, ExternKeyword + " " + name) ==
      if name in st.externs then st.(error := true) else st.(externs := st.externs + [name])
  {
    var line := ExternKeyword + " " + name;
    assert line[|ExternKeyword|..] == " " + name;
    TrimmedAfterBlank(name);
    ScanOfName(name);
  }

  /** As file.c writes the duplicate check, a repeated declaration followed
      by a comment is not caught and the name is declared twice; comparing
      the name catches it. */
  lemma ExternDuplicateFinding(st: State, name: string)
    requires IsName(name) && name in st.externs && AllNames(st.externs)
    ensures var line := ExternKeyword + " " + name + " ;";
      IsExtern(line) &&
      ExternOfAsWritten(st, line) == st.(externs := st.externs + [name]) &&
      ExternOf(st, line) == st.(error := true)
  {
    var line := ExternKeyword + " " + name + " ;";
    var s := name + " ;";
    assert line[|ExternKeyword|..] == " " + s;
    TrimmedAfterBlank(s);
    ScanOfNameWithComment(name);
    assert !IsName(s) by {
      assert s[|name|] == ' ';
    }
  }

  /** As file.c writes it, `.entry NAME ;` records the text `NAME ;`, which
      is not a name and so can never match a label; cutting the operand to
      the scanned name records NAME. */
  lemma EntryCommentFinding(st: State, name: string)
    requires IsName(name)
    ensures var line := EntryKeyword + " " + name + " ;";
      IsEntry(line) &&
      EntryOfAsWritten(st, line) == st.(entries := st.entries + [name + " ;"]) &&
      !IsName(name + " ;") &&
      EntryOf(st, line) == st.(entries := st.entries + [name])
  {
    var line := EntryKeyword + " " + name + " ;";
    var s := name + " ;";
    assert line[|EntryKeyword|..] == " " + s;
    TrimmedAfterBlank(s);
    ScanOfNameWithComment(name);
    assert !IsName(s) by {
      assert s[|name|] == ' ';
    }
  }

  /** `.entry NAME` records NAME as an entry. */
  lemma EntryRecorded(st: State, name: string)
    requires IsName(name)
    ensures IsEntry(EntryKeyword + " " + name)
    ensures EntryOf(st, EntryKeyword + " " + name) == st.(entries := st.entries + [name])
  {
    var line := EntryKeyword + " " + name;
    assert line[|EntryKeyword|..] == " " + name;
    TrimmedAfterBlank(name);
    ScanOfName(name);
  }

  /** `NAME: rest` records the label NAME and handles the trimmed rest as an
      instruction line. */
  lemma LabelRecorded(st: State, name: string, rest: string)
    requires IsName(name) && IsTrimmed(name + ":" + rest)
    ensures LabelOf(st, name + ":" + rest) ==
      InstructionOf(st.(labels := st.labels + [name]), Trimmed(rest))
  {
    var line := name + ":" + rest;
    TrimmedOfTrimmed(line);
    NameLengthOfName(name, ":" + rest);
    assert line == name + (":" + rest);
    assert line[|name| + 1..] == rest;
  }

  /** A blank between the name and the colon loses the label: the line is
      dropped and the error flag is left as it was. */
  lemma LabelBlankBeforeColon(st: State, name: string, rest: string)
    requires IsName(name) && IsTrimmed(name + " :" + rest)
    ensures LabelOf(st, name + " :" + rest) == st
  {
    var line := name + " :" + rest;
    TrimmedOfTrimmed(line);
    NameLengthOfName(name, " :" + rest);
    assert line == name + (" :" + rest);
    assert line[|name|] == ' ';
  }

  /** A line that is neither blank nor a comment, a directive, a label, an
      instruction nor the name of a macro is an error: the flag is set and
      the counter and the tables are left as they were. */
  lemma Unclassified(st: State, line: string)
    requires line != [] && line[0] != ';'
    requires !IsExtern(line) && !IsEntry(line) && !IsLabel(line)
    requires CountRegisters(line) == -1 && MacroIndex(st.macros, line).None?
    ensures DispatchOf(st, line) == st.(error := true)
  {
  }

  /** `.extern` followed by a text that does not start with a letter sets
      the error flag and changes nothing else. */
  lemma ExternBadStart(st: State, line: string)
    requires IsExtern(line)
    requires var s := Trimmed(line[|ExternKeyword|..]); s == [] || !IsAlpha(s[0])
    ensures ExternOf(st, line) == st.(error := true)
  {
  }

  /** Text after an `.extern` name that is not a comment drops the line:
      nothing changes, and the error flag is not set. */
  lemma ExternTrailing(st: State, line: string)
    requires IsExtern(line) && ScanOf(Trimmed(line[|ExternKeyword|..])).Trailing?
    ensures ExternOf(st, line) == st
  {
  }

  /** `.entry` followed by a text that does not start with a letter sets the
      error flag and changes nothing else. */
  lemma EntryBadStart(st: State, line: string)
    requires IsEntry(line)
    requires var s := Trimmed(line[|EntryKeyword|..]); s == [] || !IsAlpha(s[0])
    ensures EntryOf(st, line) == st.(error := true)
  {
  }

  /** Text after an `.entry` name that is not a comment drops the line:
      nothing changes, and the error flag is not set. */
  lemma EntryTrailing(st: State, line: string)
    requires IsEntry(line) && ScanOf(Trimmed(line[|EntryKeyword|..])).Trailing?
    ensures EntryOf(st, line) == st
  {
  }

  /** A label line that does not start with a letter sets the error flag and
      changes nothing else. */
  lemma LabelBadStart(st: State, line: string)
    requires Trimmed(line) == [] || !IsAlpha(Trimmed(line)[0])
    ensures LabelOf(st, line) == st.(error := true)
  {
  }

  /** A blank line or a comment changes nothing. */
  lemma BlankOrCommentSkipped(st: State, line: string)
    requires IsBlankOrComment(line)
    ensures DispatchOf(st, line) == st
  {
  }

  /** A line that names a macro, and that no earlier branch takes, is a
      macro call, which changes nothing. */
  lemma MacroCallChangesNothing(st: State, line: string)
    requires !IsBlankOrComment(line) && !IsExtern(line) && !IsEntry(line) && !IsLabel(line)
    requires CountRegisters(line) == -1 && MacroIndex(st.macros, line).Some?
    ensures DispatchOf(st, line) == st
  {
  }
}

=== FILE: instructions.dfy ===
/** The instruction table of parser.h: each mnemonic of the 16-instruction
    machine with the number of operands it takes. */
module Instructions {
  import opened Wrappers

  /** `instructions_list`, in the order the header lists it; the order
      matters because the first entry found in a line wins. */
  const Table: seq<(string, nat)> := [
    ("mov", 2), ("cmp", 2), ("add", 2), ("sub", 2), ("lea", 2),
    ("clr", 1), ("not", 1), ("inc", 1), ("dec", 1), ("jmp", 1),
    ("bne", 1), ("jsr", 1), ("red", 1), ("prn", 1),
    ("rts", 0), ("stop", 0)
  ]

  /** Operand count of the entry at index `i` onwards whose mnemonic is
      exactly `m`. */
  function LookupFrom(m: string, i: nat): (r: Option<nat>)
    requires i <= |Table|
    ensures r.Some? <==> exists j :: i <= j < |Table| && Table[j].0 == m
    ensures r.Some? ==> exists j :: i <= j < |Table| && Table[j] == (m, r.value)
    decreases |Table| - i
  {
    if i == |Table| then None
    else if Table[i].0 == m then Some(Table[i].1)
    else LookupFrom(m, i + 1)
  }

  /** Operand count of a mnemonic, `None` for a word that is not one. */
  function OperandCount(m: string): (r: Option<nat>)
    ensures r.Some? <==> exists j :: 0 <= j < |Table| && Table[j].0 == m
    ensures r.Some? ==> exists j :: 0 <= j < |Table| && Table[j] == (m, r.value)
  {
    LookupFrom(m, 0)
  }

  /** The table holds sixteen pairwise distinct mnemonics. */
  lemma TableShape()
    ensures |Table| == 16
    ensures forall i, j :: 0 <= i < j < |Table| ==> Table[i].0 != Table[j].0
  {
  }

  /** Every instruction takes at most two operands, so none of them shares
      a count with the special results 3 (a data directive) and -1 (not an
      instruction) of `count_registers`. */
  lemma OperandCountsBounded()
    ensures forall i :: 0 <= i < |Table| ==> Table[i].1 <= 2
  {
  }

  /** Looking up a listed mnemonic yields the count listed with it: no
      other entry shadows it. */
  lemma OperandCountAt(j: nat)
    requires j < |Table|
    ensures OperandCount(Table[j].0) == Some(Table[j].1)
  {
    TableShape();
  }

  /** The two-operand, one-operand and no-operand groups of the table. */
  lemma OperandCountGroups()
    ensures OperandCount("mov") == OperandCount("cmp") == OperandCount("add") ==
            OperandCount("sub") == OperandCount("lea") == Some(2)
    ensures OperandCount("clr") == OperandCount("not") == OperandCount("inc") ==
            OperandCount("dec") == OperandCount("jmp") == OperandCount("bne") ==
            OperandCount("jsr") == OperandCount("red") == OperandCount("prn") == Some(1)
    ensures OperandCount("rts") == OperandCount("stop") == Some(0)
  {
    OperandCountAt(0); OperandCountAt(1); OperandCountAt(2); OperandCountAt(3);
    OperandCountAt(4); OperandCountAt(5); OperandCountAt(6); OperandCountAt(7);
    OperandCountAt(8); OperandCountAt(9); OperandCountAt(10); OperandCountAt(11);
    OperandCountAt(12); OperandCountAt(13); OperandCountAt(14); OperandCountAt(15);
  }
}

=== FILE: lexer.dfy ===
/** Line-level lexical helpers of the first pass: trimming, the keyword
    prefix tests, the label test and the identifier scanner shared by the
    macro, `.extern`, `.entry` and label handlers (file.c). A line is the
    text before its terminating NUL, so a `string` here never carries the
    terminator. */
module Lexer {
  import opened Wrappers

  // ---------------------------------------------------------------------
  // Character classes (the C locale's isalpha, isdigit, isalnum)

  predicate IsAlpha(c: char) { 'A' <= c <= 'Z' || 'a' <= c <= 'z' }
  predicate IsDigit(c: char) { '0' <= c <= '9' }
  predicate IsAlnum(c: char) { IsAlpha(c) || IsDigit(c) }

  /** What `trim` removes at the end of a line: blanks and the newline
      that `fgets` keeps. */
  predicate IsPad(c: char) { c == ' ' || c == '\n' }

  // ---------------------------------------------------------------------
  // strchr

  /** Index of the first `c` in `s`, or `|s|` when there is none (where C's
      `strchr` returns NULL). */
  function IndexOf(s: string, c: char): (k: nat)
    ensures k <= |s|
    ensures forall i :: 0 <= i < k ==> s[i] != c
    ensures k < |s| ==> s[k] == c
  {
    if s == [] || s[0] == c then 0 else 1 + IndexOf(s[1..], c)
  }

  // ---------------------------------------------------------------------
  // trim

  /** Number of blanks `trim`'s first loop skips. */
  function LeadingSpaces(s: string): (n: nat)
    ensures n <= |s|
    ensures forall i :: 0 <= i < n ==> s[i] == ' '
    ensures n < |s| ==> s[n] != ' '
  {
    if s != [] && s[0] == ' ' then 1 + LeadingSpaces(s[1..]) else 0
  }

  /** Length that survives `trim`'s second loop, which drops trailing
      blanks and newlines. */
  function KeptLength(s: string): (n: nat)
    ensures n <= |s|
    ensures forall i :: n <= i < |s| ==> IsPad(s[i])
    ensures n > 0 ==> !IsPad(s[n - 1])
  {
    if s != [] && IsPad(s[|s| - 1]) then KeptLength(s[..|s| - 1]) else |s|
  }

  /** The text `trim` leaves in its buffer. */
  function Trimmed(s: string): (t: string)
  {
    var p := s[LeadingSpaces(s)..];
    p[..KeptLength(p)]
  }

  /** A trimmed line neither starts with a blank nor ends with a blank or a
      newline. */
  predicate IsTrimmed(t: string)
  {
    t == [] || (t[0] != ' ' && !IsPad(t[|t| - 1]))
  }

  /** `trim` keeps one contiguous slice of its input: everything before it
      is blanks, everything after it is blanks and newlines, and the slice
      itself has no padding left at either end. */
  lemma TrimmedIsSlice(s: string)
    ensures var i := LeadingSpaces(s);
      i + |Trimmed(s)| <= |s| &&
      Trimmed(s) == s[i..i + |Trimmed(s)|] &&
      (forall k :: 0 <= k < i ==> s[k] == ' ') &&
      (forall k :: i + |Trimmed(s)| <= k < |s| ==> IsPad(s[k])) &&
      IsTrimmed(Trimmed(s))
  {
    var i := LeadingSpaces(s);
    var p := s[i..];
    var n := KeptLength(p);
    assert Trimmed(s) == p[..n];
    forall k | i + n <= k < |s| ensures IsPad(s[k]) {
      assert s[k] == p[k - i];
    }
    if n > 0 {
      assert p[0] == s[i];
    }
  }

  /** Trimming twice is trimming once. */
  lemma TrimmedIdempotent(s: string)
    ensures Trimmed(Trimmed(s)) == Trimmed(s)
  {
    TrimmedIsSlice(s);
    TrimmedOfTrimmed(Trimmed(s));
  }

  /** `trim` leaves a line that is already trimmed as it is. */
  lemma TrimmedOfTrimmed(t: string)
    requires IsTrimmed(t)
    ensures Trimmed(t) == t
  {
    assert LeadingSpaces(t) == 0;
    assert t[0..] == t;
    assert KeptLength(t) == |t|;
  }

  /** `trim` (file.c): the first loop counts the leading blanks that the
      memmove shifts away, the second truncates trailing blanks and newlines. */
  method Trim(s: string) returns (t: string)
    ensures t == Trimmed(s)
    ensures IsTrimmed(t)
  {
    var p := 0;
    while p < |s| && s[p] == ' '
      invariant p <= |s|
      invariant forall i :: 0 <= i < p ==> s[i] == ' '
    {
      p := p + 1;
    }
    t := s[p..];
    var len := |t|;
    while len > 0 && IsPad(t[len - 1])
      invariant 0 <= len <= |t|
      invariant forall i :: len <= i < |t| ==> IsPad(t[i])
    {
      len := len - 1;
    }
    t := t[..len];
    TrimmedIsSlice(s);
  }

  // ---------------------------------------------------------------------
  // Keyword prefix tests (strncmp against a literal)

  const McroKeyword := "mcro "
  const McroEndKeyword := "mcroend"
  const ExternKeyword := ".extern"
  const EntryKeyword := ".entry"

  /** `mcroend`: the line starts with the macro terminator. */
  predicate IsMcroEnd(line: string) { McroEndKeyword <= line }
  /** `is_mcro_def`: the line starts with `mcro` and a blank. */
  predicate IsMcroDef(line: string) { McroKeyword <= line }
  /** `is_extern` */
  predicate IsExtern(line: string) { ExternKeyword <= line }
  /** `is_entry` */
  predicate IsEntry(line: string) { EntryKeyword <= line }

  /** The terminator is never mistaken for a definition, nor the two
      directives for each other. */
  lemma KeywordsExclusive(line: string)
    ensures !(IsMcroEnd(line) && IsMcroDef(line))
    ensures !(IsExtern(line) && IsEntry(line))
  {
    if IsMcroEnd(line) {
      assert line[4] == McroEndKeyword[4];
    }
    if IsExtern(line) {
      assert line[2] == ExternKeyword[2];
    }
  }

  // ---------------------------------------------------------------------
  // is_label

  /** `is_label`: the line has a `:` and its first `:` sits at an index from
      1 to 31. */
  predicate IsLabel(line: string)
  {
    var k := IndexOf(line, ':');
    k < |line| && 0 < k < 32
  }

  /** `IsLabel` holds exactly when some `:` at index 1..31 has no `:`
      before it. */
  lemma IsLabelMeaning(line: string)
    ensures IsLabel(line) <==>
      exists k :: 0 < k < 32 && k < |line| && line[k] == ':' && ':' !in line[..k]
  {
    var c := IndexOf(line, ':');
    if IsLabel(line) {
      assert ':' !in line[..c];
    }
    if k :| 0 < k < 32 && k < |line| && line[k] == ':' && ':' !in line[..k] {
      assert forall j :: 0 <= j < k ==> line[j] == line[..k][j];
      assert c == k;
    }
  }

  // ---------------------------------------------------------------------
  // The identifier scanner

  /** Longest name the scanner accepts: its loop stops at index 32. */
  const MaxNameLength := 32

  /** A name as the scanner extracts it: a letter followed by letters and
      digits, 32 characters at most. */
  predicate IsName(name: string)
  {
    0 < |name| <= MaxNameLength && IsAlpha(name[0]) &&
    forall i :: 1 <= i < |name| ==> IsAlnum(name[i])
  }

  /** End of the run of letters and digits that starts at index `i`, capped
      at `MaxNameLength`. */
  function AlnumRun(s: string, i: nat): (n: nat)
    requires i <= |s| && i <= MaxNameLength
    ensures i <= n <= |s| && n <= MaxNameLength
    ensures forall j :: i <= j < n ==> IsAlnum(s[j])
    ensures n == MaxNameLength || n == |s| || !IsAlnum(s[n])
    decreases MaxNameLength - i
  {
    if i < MaxNameLength && i < |s| && IsAlnum(s[i]) then AlnumRun(s, i + 1) else i
  }

  /** Length of the name at the head of `s`: the longest prefix that is a
      name. */
  function NameLength(s: string): (n: nat)
    requires s != [] && IsAlpha(s[0])
    ensures n <= |s| && IsName(s[..n])
    ensures n == MaxNameLength || n == |s| || !IsAlnum(s[n])
  {
    AlnumRun(s, 1)
  }

  /** Every character from `from` up to the first `;` is a blank: the
      handlers allow nothing after a name but blanks and a comment. */
  predicate OnlyCommentAfter(s: string, from: nat)
    requires from <= |s|
  {
    forall i :: from <= i < from + IndexOf(s[from..], ';') ==> s[i] == ' '
  }

  /** Outcome of scanning a name: the first character is not a letter, the
      name is followed by something other than blanks and a comment, or the
      name is accepted. */
  datatype NameScan = BadStart | Trailing(name: string) | Accepted(name: string)

  /** The scanner's verdict on the trimmed text after a keyword. */
  function ScanOf(s: string): (r: NameScan)
    ensures r.BadStart? <==> s == [] || !IsAlpha(s[0])
    ensures !r.BadStart? ==>
      IsName(r.name) && r.name <= s &&
      (|r.name| == MaxNameLength || |r.name| == |s| || !IsAlnum(s[|r.name|]))
    ensures r.Accepted? <==> !r.BadStart? && OnlyCommentAfter(s, |r.name|)
  {
    if s == [] || !IsAlpha(s[0]) then BadStart
    else
      var n := NameLength(s);
      if OnlyCommentAfter(s, n) then Accepted(s[..n]) else Trailing(s[..n])
  }

  /** The loop `for (n = 1; n < 32; n++) if (!isalnum(s[n])) break;` that
      every handler runs once it has seen a letter first. */
  method NameEnd(s: string) returns (n: nat)
    requires s != [] && IsAlpha(s[0])
    ensures n == NameLength(s)
  {
    n := 1;
    while n < MaxNameLength
      invariant 1 <= n <= MaxNameLength && n <= |s|
      invariant forall j :: 1 <= j < n ==> IsAlnum(s[j])
      invariant AlnumRun(s, 1) == AlnumRun(s, n)
    {
      if n == |s| || !IsAlnum(s[n]) {
        break;
      }
      n := n + 1;
    }
  }

  /** The loop that follows the name: a `;` ends the scan, any other
      non-blank character rejects the line. */
  method CommentOnly(s: string, from: nat) returns (ok: bool)
    requires from <= |s|
    ensures ok == OnlyCommentAfter(s, from)
  {
    var n := from;
    while n < |s|
      invariant from <= n <= |s|
      invariant forall i :: from <= i < n ==> s[i] == ' '
    {
      if s[n] == ';' {
        break;
      } else if s[n] != ' ' {
        assert IndexOf(s[from..], ';') > n - from;
        return false;
      }
      n := n + 1;
    }
    assert IndexOf(s[from..], ';') == n - from;
    ok := true;
  }

  /** The scanner as the macro, `.extern` and `.entry` handlers run it on
      the trimmed text after their keyword. */
  method ScanName(s: string) returns (r: NameScan)
    ensures r == ScanOf(s)
  {
    if s == [] || !IsAlpha(s[0]) {
      return BadStart;
    }
    var n := NameEnd(s);
    var ok := CommentOnly(s, n);
    r := if ok then Accepted(s[..n]) else Trailing(s[..n]);
  }

  /** The run of letters and digits from `i` ends where the name ends. */
  lemma {:induction false} AlnumRunEndsAt(s: string, n: nat, i: nat)
    requires i <= n <= |s| && n <= MaxNameLength
    requires forall j :: i <= j < n ==> IsAlnum(s[j])
    requires n == MaxNameLength || n == |s| || !IsAlnum(s[n])
    ensures AlnumRun(s, i) == n
    decreases n - i
  {
    if i < n {
      AlnumRunEndsAt(s, n, i + 1);
    }
  }

  /** A name followed by anything but a letter or digit is scanned as
      exactly that name. */
  lemma NameLengthOfName(name: string, tail: string)
    requires IsName(name) && (tail == [] || !IsAlnum(tail[0]))
    ensures NameLength(name + tail) == |name|
    ensures (name + tail)[..|name|] == name
  {
    var s := name + tail;
    assert forall j :: 1 <= j < |name| ==> s[j] == name[j];
    assert |name| < |s| ==> s[|name|] == tail[0];
    AlnumRunEndsAt(s, |name|, 1);
  }

  /** The scanner accepts a name standing alone. */
  lemma ScanOfName(name: string)
    requires IsName(name)
    ensures ScanOf(name) == Accepted(name)
  {
    NameLengthOfName(name, []);
    assert name + [] == name;
  }

  /** The scanner accepts a name followed by a blank and a comment, and
      returns the name alone. */
  lemma ScanOfNameWithComment(name: string)
    requires IsName(name)
    ensures ScanOf(name + " ;") == Accepted(name)
  {
    var s := name + " ;";
    NameLengthOfName(name, " ;");
    assert s[|name|..] == " ;";
    assert IndexOf(" ;", ';') == 1;
    assert s[|name|] == ' ';
  }

  /** A single blank before a trimmed text is all `trim` removes. */
  lemma TrimmedAfterBlank(t: string)
    requires IsTrimmed(t) && t != []
    ensures Trimmed(" " + t) == t
  {
    assert LeadingSpaces(" " + t) == 1 by {
      assert (" " + t)[1..] == t;
    }
    TrimmedOfTrimmed(t);
  }

  /** On a trimmed line without a comment an accepted name is the whole
      line: this is when the handlers' comparisons against the full
      remainder coincide with comparisons against the name. */
  lemma AcceptedNameIsWholeText(s: string)
    requires IsTrimmed(s) && ';' !in s && ScanOf(s).Accepted?
    ensures ScanOf(s).name == s
  {
    var n := |ScanOf(s).name|;
    var k := IndexOf(s[n..], ';');
    assert k == |s| - n;
    assert n == |s|;
  }
}

=== FILE: macros.dfy ===
/** The macro table of the first pass (`mcro_list` in file.c): each macro is
    its name followed by the lines of its body, searched by exact name. */
module Macros {
  import opened Wrappers

  /** One entry of the table: the name (`mcro_list[i][0]`) and the body
      lines collected after the definition. */
  datatype Macro = Macro(name: string, body: seq<string>)

  /** The names of the table, in definition order. */
  function Names(macros: seq<Macro>): (r: seq<string>)
    ensures |r| == |macros|
    ensures forall i :: 0 <= i < |macros| ==> r[i] == macros[i].name
  {
    if macros == [] then [] else Names(macros[..|macros| - 1]) + [macros[|macros| - 1].name]
  }

  /** No name is defined twice. */
  predicate DistinctNames(macros: seq<Macro>)
  {
    forall i, j :: 0 <= i < j < |macros| ==> macros[i].name != macros[j].name
  }

  /** Index of the first macro from `i` on whose name is exactly `name`. */
  function IndexFrom(macros: seq<Macro>, name: string, i: nat): (r: Option<nat>)
    requires i <= |macros|
    ensures r.Some? ==> i <= r.value < |macros| && macros[r.value].name == name
    ensures r.Some? ==> forall j :: i <= j < r.value ==> macros[j].name != name
    ensures r.None? ==> forall j :: i <= j < |macros| ==> macros[j].name != name
    decreases |macros| - i
  {
    if i == |macros| then None
    else if macros[i].name == name then Some(i)
    else IndexFrom(macros, name, i + 1)
  }

  /** `is_macro_call`, and the search of `add_line_to_mcro`: the index of the
      first macro named `name`, `None` where the C code answers `(size_t)-1`. */
  function MacroIndex(macros: seq<Macro>, name: string): (r: Option<nat>)
    ensures r.Some? ==> r.value < |macros| && macros[r.value].name == name
    ensures r.Some? ==> forall j :: 0 <= j < r.value ==> macros[j].name != name
    ensures r.None? <==> name !in Names(macros)
  {
    IndexFrom(macros, name, 0)
  }

  /** With distinct names a macro is found at its own index. */
  lemma MacroIndexOfDistinct(macros: seq<Macro>, k: nat)
    requires DistinctNames(macros) && k < |macros|
    ensures MacroIndex(macros, macros[k].name) == Some(k)
  {
    assert macros[k].name in Names(macros) by {
      assert Names(macros)[k] == macros[k].name;
    }
  }

  /** `add_line_to_mcro`: the line is appended to the body of the first macro
      named `name`; with no such macro the table is left as it is. */
  function AppendLine(macros: seq<Macro>, name: string, line: string): (r: seq<Macro>)
    ensures |r| == |macros| && Names(r) == Names(macros)
    ensures forall j :: 0 <= j < |macros| ==>
      r[j].body == macros[j].body + (if MacroIndex(macros, name) == Some(j) then [line] else [])
  {
    match MacroIndex(macros, name)
    case None => macros
    case Some(k) => macros[k := Macro(name, macros[k].body + [line])]
  }

  /** The line goes to the macro of that name and to no other. */
  lemma AppendLineToNamed(macros: seq<Macro>, k: nat, line: string)
    requires DistinctNames(macros) && k < |macros|
    ensures var r := AppendLine(macros, macros[k].name, line);
      r[k].body == macros[k].body + [line] &&
      forall j :: 0 <= j < |macros| && j != k ==> r[j] == macros[j]
  {
    MacroIndexOfDistinct(macros, k);
  }

  /** Appending to a macro that is not in the table changes nothing. */
  lemma AppendLineUnknown(macros: seq<Macro>, name: string, line: string)
    requires name !in Names(macros)
    ensures AppendLine(macros, name, line) == macros
  {
  }

  /** Appending a body line keeps the names distinct. */
  lemma AppendLineKeepsDistinct(macros: seq<Macro>, name: string, line: string)
    requires DistinctNames(macros)
    ensures DistinctNames(AppendLine(macros, name, line))
  {
    var r := AppendLine(macros, name, line);
    forall i, j | 0 <= i < j < |r| ensures r[i].name != r[j].name {
      assert r[i].name == Names(r)[i] == Names(macros)[i] == macros[i].name;
      assert r[j].name == Names(r)[j] == Names(macros)[j] == macros[j].name;
    }
  }

  /** Registering a macro adds its name at the end of the names. */
  lemma NamesAppend(macros: seq<Macro>, m: Macro)
    ensures Names(macros + [m]) == Names(macros) + [m.name]
  {
    var r := Names(macros + [m]);
    assert forall i :: 0 <= i < |macros| ==> r[i] == (macros + [m])[i].name == macros[i].name;
  }

  /** A name registered last, and not before, is found at the end. */
  lemma AddedMacroIndex(macros: seq<Macro>, name: string)
    requires name !in Names(macros)
    ensures MacroIndex(macros + [Macro(name, [])], name) == Some(|macros|)
  {
    var ms := macros + [Macro(name, [])];
    NamesAppend(macros, Macro(name, []));
    assert Names(ms)[|macros|] == name;
    forall j | 0 <= j < |macros| ensures ms[j].name != name {
      assert Names(macros)[j] == macros[j].name;
    }
  }

  /** Registering a name not yet in the table keeps the names distinct. */
  lemma AddKeepsDistinct(macros: seq<Macro>, name: string)
    requires DistinctNames(macros) && name !in Names(macros)
    ensures DistinctNames(macros + [Macro(name, [])])
  {
    forall i | 0 <= i < |macros| ensures macros[i].name != name {
      assert Names(macros)[i] == macros[i].name;
    }
  }

  /** Appending `line` to a body and then `rest` to the result leaves the
      body extended by `[line] + rest`. */
  lemma ExtendBody(macros: seq<Macro>, m: nat, name: string, body: seq<string>, line: string, rest: seq<string>)
    requires m < |macros|
    ensures macros[m := Macro(name, body + [line])][m := Macro(name, (body + [line]) + rest)] ==
      macros[m := Macro(name, body + ([line] + rest))]
  {
    assert (body + [line]) + rest == body + ([line] + rest);
    var u, v := macros[m := Macro(name, body + [line])][m := Macro(name, (body + [line]) + rest)],
      macros[m := Macro(name, body + ([line] + rest))];
    assert |u| == |v| && forall i :: 0 <= i < |u| ==> u[i] == v[i];
  }

  /** Filling the body of a macro just registered with an empty one gives
      the macro with that body. */
  lemma FillNewBody(macros: seq<Macro>, name: string, lines: seq<string>)
    ensures var ms := macros + [Macro(name, [])];
      ms[|macros| := Macro(name, ms[|macros|].body + lines)] == macros + [Macro(name, lines)]
  {
    var ms := macros + [Macro(name, [])];
    assert ms[|macros|].body + lines == lines;
    var u, v := ms[|macros| := Macro(name, ms[|macros|].body + lines)], macros + [Macro(name, lines)];
    assert |u| == |v| && forall i :: 0 <= i < |u| ==> u[i] == v[i];
  }
}

=== FILE: wrappers.dfy ===
/** The one optional-value type the model needs: `None` stands for the
    C code's "not found" answers (a NULL pointer, the `(size_t)-1` index). */
module Wrappers {
  datatype Option<T> = None | Some(value: T)
}
